=== FILE: README.md ===
# tritium instrumentation core, in Dafny

This project models the part of tritium that sits between a caller and an
instrumented component:

- **The call-interception protocol** (`InvocationEventProxy`). An
  intercepted call first asks the event handler whether it is enabled and
  the filter whether to instrument. It then either runs the delegate
  directly, or runs it between the `preInvocation`, `onSuccess` and
  `onFailure` hooks. A hook failure must not change what the caller sees,
  but only `RuntimeException`s are swallowed.
- **The event-handler base** (`AbstractInvocationEventHandler`). The
  enabled flag sits behind a supplier that is asked on every call.
  `nullToEmpty` normalises argument arrays.
- **The metric-registration discipline** (`MetricRegistries`):
  - `registerSafe` and `registerWithReplacement`, which go through
    `registerOrReplace` and its interface-set conflict check;
  - the race-tolerant `getOrAdd`;
  - the `metricsPrefixedBy` and `metricsMatching` filters;
  - `registerCache`.
- **The executor wrapper** (`TaggedMetricsScheduledExecutorService`). It
  counts, times and overrun-checks every task it hands to a delegate
  executor.

Modules:

| file | module | models |
|---|---|---|
| `java_values.dfy` | `JavaValues` | `Option`, `Result`, nullable references, the throwable classes the protocol tells apart, and 64-bit `long` wrap-around and truncating division |
| `java_strings.dfy` | `JavaStrings` | `String.compareTo` order (by UTF-16 code unit), `startsWith`, `trim` |
| `event_handlers.dfy` | `EventHandlers` | `AbstractInvocationEventHandler` |
| `event_proxy.dfy` | `EventProxy` | `InvocationEventProxy` |
| `metric_registries.dfy` | `MetricRegistries` | `MetricRegistries` |
| `executor_metrics.dfy` | `ExecutorMetrics` | `TaggedMetricsScheduledExecutorService` |

The collaborators of an intercepted call are not visible code. They are the
handler, the filter, the hooks and the delegate, and they become a `Script`
of answers. Each answer either gives a value or raises a throwable. An
intercepted call returns its caller-visible outcome together with the
*trace* of collaborator calls it made, so "called exactly once" and "not
called" are statements about that trace.

`InvocationTargetException` is a checked exception. None of the proxy's
`catch (RuntimeException e)` clauses catches it, and the model keeps this
distinction.

The registry is a `map` from name to metric. Each metric carries the set of
interfaces its class implements directly. Concurrent activity during
`getOrAdd` becomes a `Race` parameter.

The executor's metrics become a record of counts and sample sequences.
Elapsed times are inputs, as the clock reads them.

## Model

| member | source | states |
|---|---|---|
| EventHandlers.NullToEmpty | tritium-core/src/main/java/com/palantir/tritium/event/AbstractInvocationEventHandler.java:69-71 | a null array becomes the one shared empty array; any other array is returned itself |
| EventHandlers.NullToEmptyIdempotent | tritium-core/src/main/java/com/palantir/tritium/event/AbstractInvocationEventHandler.java:69-71 | normalising an already normalised array changes nothing |
| EventHandlers.NullToEmptyKeepsElements | tritium-core/src/main/java/com/palantir/tritium/event/AbstractInvocationEventHandler.java:33 | the elements handed on are the caller's, or none for a null array |
| EventHandlers.AlwaysEnabledHandler | tritium-core/src/main/java/com/palantir/tritium/event/AbstractInvocationEventHandler.java:40-42 | the no-argument handler is enabled at every moment |
| EventHandlers.NewHandler | tritium-core/src/main/java/com/palantir/tritium/event/AbstractInvocationEventHandler.java:44-46 | a null supplier is rejected under the name `isEnabledSupplier`; otherwise the handler's answer is the supplier's at every moment |
| EventHandlers.IsEnabled | tritium-core/src/main/java/com/palantir/tritium/event/AbstractInvocationEventHandler.java:53-56 | the answer is the supplier's answer at the moment of the call, and the call leaves the handler as it found it |
| EventHandlers.PollEnabled | tritium-core/src/main/java/com/palantir/tritium/event/AbstractInvocationEventHandler.java:53-56 | a series of `isEnabled` calls, each on the handler the previous call left, answers at every call what the supplier answers at that moment, and ends with the handler it started with |
| EventProxy.IsEnabled | tritium-lib/src/main/java/com/palantir/tritium/proxy/InvocationEventProxy.java:81-89 | true exactly when the handler answers true and then the filter answers true; the filter is asked iff the handler said true, and always after it; any throwable from either yields false |
| EventProxy.ReflectiveInvoke | tritium-lib/src/main/java/com/palantir/tritium/proxy/InvocationEventProxy.java:149 | reflection returns the delegate's value, or throws the delegate's throwable inside one `InvocationTargetException` |
| EventProxy.Execute | tritium-lib/src/main/java/com/palantir/tritium/proxy/InvocationEventProxy.java:147-153 | the delegate is called once, and its own outcome (the reflective wrapper removed) reaches the caller |
| EventProxy.HandlePreInvocation | tritium-lib/src/main/java/com/palantir/tritium/proxy/InvocationEventProxy.java:128-135 | the pre-hook is called once; a `RuntimeException` yields a null context; any other throwable escapes |
| EventProxy.HandleOnSuccess | tritium-lib/src/main/java/com/palantir/tritium/proxy/InvocationEventProxy.java:157-164 | the success hook is called once with the context and result; the result is returned unless the hook threw a non-runtime throwable, which then escapes |
| EventProxy.HandleOnFailure | tritium-lib/src/main/java/com/palantir/tritium/proxy/InvocationEventProxy.java:173-180 | the failure hook is called once; the cause is returned when the hook returns or throws a `RuntimeException`; a non-runtime throwable of the hook escapes in its place |
| EventProxy.Unwrapped | tritium-lib/src/main/java/com/palantir/tritium/proxy/InvocationEventProxy.java:167-168 | exactly one `InvocationTargetException` layer is removed, and nothing else is touched |
| EventProxy.InvocationFailed | tritium-lib/src/main/java/com/palantir/tritium/proxy/InvocationEventProxy.java:166-171 | the failure hook sees the cause with one more reflective layer removed; that cause is rethrown, unless the hook throws a non-runtime throwable, which is rethrown in its place |
| EventProxy.Invoke | tritium-lib/src/main/java/com/palantir/tritium/proxy/InvocationEventProxy.java:139-142 | a delegate that throws skips the success hook; a returning delegate is followed by exactly one success-hook call with its value |
| EventProxy.InstrumentInvocation | tritium-lib/src/main/java/com/palantir/tritium/proxy/InvocationEventProxy.java:117-124 | the pre-hook comes first; a non-runtime throwable from it is the call's only effect |
| EventProxy.HandleInvocation | tritium-lib/src/main/java/com/palantir/tritium/proxy/InvocationEventProxy.java:94-103 | the handler is asked first, the filter only after a true answer, and both before anything else runs; when not enabled, the questions are followed only by the delegate call, and the caller sees the delegate's own outcome |
| EventProxy.DisabledPassesThrough | tritium-lib/src/main/java/com/palantir/tritium/proxy/InvocationEventProxy.java:94-103 | not enabled: the call is the questions asked followed by one delegate call, so no hook is called, and the delegate's outcome reaches the caller unchanged |
| EventProxy.EnabledTrace | tritium-lib/src/main/java/com/palantir/tritium/proxy/InvocationEventProxy.java:98-99 | enabled: the call is the two questions followed by the instrumented protocol |
| EventProxy.EnabledCallTrace | tritium-lib/src/main/java/com/palantir/tritium/proxy/InvocationEventProxy.java:117-180 | enabled: the exact sequence of collaborator calls for each pre-hook, delegate and success-hook outcome |
| EventProxy.PreInvocationCalledOnce | tritium-lib/src/main/java/com/palantir/tritium/proxy/InvocationEventProxy.java:117-118 | enabled: the pre-hook is called exactly once, right after the two questions, with the proxy, operation and arguments |
| EventProxy.PreHookCount | tritium-lib/src/main/java/com/palantir/tritium/proxy/InvocationEventProxy.java:128-135 | enabled: the pre-hook occurs exactly once in the call sequence |
| EventProxy.DelegateCount | tritium-lib/src/main/java/com/palantir/tritium/proxy/InvocationEventProxy.java:117-153 | enabled: the delegate runs once, or not at all when the pre-hook's throwable escapes |
| EventProxy.SuccessHookCount | tritium-lib/src/main/java/com/palantir/tritium/proxy/InvocationEventProxy.java:139-164 | enabled: the success hook is called once iff the delegate ran and returned, and never otherwise |
| EventProxy.FailureHookCount | tritium-lib/src/main/java/com/palantir/tritium/proxy/InvocationEventProxy.java:117-124 | enabled: the failure hook is called once iff the delegate threw or the success hook threw a non-runtime throwable |
| EventProxy.DelegateReturns | tritium-lib/src/main/java/com/palantir/tritium/proxy/InvocationEventProxy.java:139-164 | enabled, delegate returns v: the success hook gets the pre-hook's context and v, the failure hook is not called, and v is returned even if the success hook throws a `RuntimeException` |
| EventProxy.SuccessHookEscalates | tritium-lib/src/main/java/com/palantir/tritium/proxy/InvocationEventProxy.java:119-122 | a non-runtime throwable of the success hook goes to the failure hook and is thrown in place of the result |
| EventProxy.DelegateThrows | tritium-lib/src/main/java/com/palantir/tritium/proxy/InvocationEventProxy.java:166-180 | enabled, delegate throws: the failure hook is called once with the context and the unwrapped cause, and that same cause is rethrown even if the hook throws a `RuntimeException` |
| EventProxy.PreHookEscapes | tritium-lib/src/main/java/com/palantir/tritium/proxy/InvocationEventProxy.java:128-135 | a non-runtime throwable of the pre-hook reaches the caller before the delegate or any other hook runs |
| EventProxy.ObserversAreTransparent | tritium-lib/src/main/java/com/palantir/tritium/proxy/InvocationEventProxy.java:94-180 | when hooks fail only with runtime exceptions, the caller sees the undecorated call's outcome, with one reflective wrapper removed on the instrumented path |
| EventProxy.ToString | tritium-lib/src/main/java/com/palantir/tritium/proxy/InvocationEventProxy.java:71-74 | a proxy's string is the string of the object at the bottom of its delegate chain |
| EventProxy.NestingKeepsToString | tritium-lib/src/main/java/com/palantir/tritium/proxy/InvocationEventProxy.java:71-74 | stacking any number of proxies does not change the string a caller sees |
| MetricRegistries.RegisterOrReplace | tritium-metrics/src/main/java/com/palantir/tritium/metrics/MetricRegistries.java:283-316 | success iff the name is free or its metric has the same interface set; a conflict throws and changes nothing; otherwise the name maps to the returned metric, which is the new one when replacing or inserting and the old one when not; every other name is untouched |
| MetricRegistries.RegisterSafe | tritium-metrics/src/main/java/com/palantir/tritium/metrics/MetricRegistries.java:275-277 | inserts on a free name; returns the existing compatible metric without change; throws on a conflict without change |
| MetricRegistries.RegisterWithReplacement | tritium-metrics/src/main/java/com/palantir/tritium/metrics/MetricRegistries.java:279-281 | on a free name or a compatible one the new metric is installed and returned; on a conflict it throws without change |
| MetricRegistries.RegisterSafeIdempotent | tritium-metrics/src/main/java/com/palantir/tritium/metrics/MetricRegistries.java:306-312 | a repeated identical `registerSafe` returns the same answer and leaves the registry as the first left it |
| MetricRegistries.FirstRegistrationWins | tritium-metrics/src/main/java/com/palantir/tritium/metrics/MetricRegistries.java:288-312 | of two compatible `registerSafe` calls on a free name, the first metric stays registered and is returned both times |
| MetricRegistries.LastReplacementWins | tritium-metrics/src/main/java/com/palantir/tritium/metrics/MetricRegistries.java:300-305 | of two compatible `registerWithReplacement` calls, the second metric ends up registered and returned |
| MetricRegistries.CheckExisting | tritium-metrics/src/main/java/com/palantir/tritium/metrics/MetricRegistries.java:134-142 | the existing metric is returned iff there is one and it is of the builder's kind; otherwise the error names the name, what was found and the builder's new metric |
| MetricRegistries.AddMetric | tritium-metrics/src/main/java/com/palantir/tritium/metrics/MetricRegistries.java:118-131 | uncontended on a free name, the built metric is registered and returned; when another thread registered first, its metric stays and passes the kind check or gives a kind-mismatch error; when that metric was removed again, the name is free and the error reports nothing found; a metric it returns is the one the registry holds under the name |
| MetricRegistries.GetOrAdd | tritium-metrics/src/main/java/com/palantir/tritium/metrics/MetricRegistries.java:105-142 | present name: the metric is returned iff it is of the builder's kind, with no change; free name: the built metric is registered, or a racing winner passes the same kind check; only the name's entry can change |
| MetricRegistries.GetOrAddIdempotent | tritium-metrics/src/main/java/com/palantir/tritium/metrics/MetricRegistries.java:105-111 | once `getOrAdd` succeeded, asking again yields the same metric and changes nothing, whatever other threads do |
| MetricRegistries.PrefixedBy | tritium-metrics/src/main/java/com/palantir/tritium/metrics/MetricRegistries.java:165-168 | the filter accepts a name iff the name starts with the prefix, whatever the metric |
| MetricRegistries.Put | tritium-metrics/src/main/java/com/palantir/tritium/metrics/MetricRegistries.java:182 | inserting into a name-sorted map keeps it strictly sorted, adds the name, holds the new pair, and keeps every pair of another name |
| MetricRegistries.MetricsMatching | tritium-metrics/src/main/java/com/palantir/tritium/metrics/MetricRegistries.java:177-186 | the result is strictly sorted by name, its names are exactly the registry's names the filter accepts, and each maps to the registry's metric |
| MetricRegistries.RegisterAllWithReplacement | tritium-metrics/src/main/java/com/palantir/tritium/metrics/MetricRegistries.java:210-212 | success iff no entry conflicts, and then every entry is installed; on a conflict the error names the first conflicting entry and the metric holding its name, the entries before it are installed, and it and every later entry's name are as before; names outside the set are never touched |
| MetricRegistries.RegisterCache | tritium-metrics/src/main/java/com/palantir/tritium/metrics/MetricRegistries.java:204-213 | a name made only of characters `trim` removes is rejected before anything is registered; otherwise the call succeeds iff no metric of the set conflicts, a success installs every metric, a conflict stops at the first conflicting metric with those before it installed, and names outside the set are never touched |
| MetricRegistries.StopLiftsPastFirst | tritium-metrics/src/main/java/com/palantir/tritium/metrics/MetricRegistries.java:210-212 | a stop at some metric of the rest, after the first metric registered cleanly, is a stop at the next position of the whole set |
| MetricRegistries.ReRegisteringCacheSwapsMetrics | tritium-metrics/src/main/java/com/palantir/tritium/metrics/MetricRegistries.java:209-212 | registering a cache again under the same name with compatible metrics swaps in the new metrics |
| JavaStrings.LessIrreflexive | tritium-metrics/src/main/java/com/palantir/tritium/metrics/MetricRegistries.java:179 | no string sorts before itself |
| JavaStrings.LessAsymmetric | tritium-metrics/src/main/java/com/palantir/tritium/metrics/MetricRegistries.java:179 | two strings are never each before the other |
| JavaStrings.LessTransitive | tritium-metrics/src/main/java/com/palantir/tritium/metrics/MetricRegistries.java:179 | the string order a `TreeMap` sorts by is transitive |
| JavaStrings.LessTotal | tritium-metrics/src/main/java/com/palantir/tritium/metrics/MetricRegistries.java:179 | any two different strings are ordered one way or the other, because different strings have different UTF-16 encodings |
| JavaStrings.Utf16Injective | tritium-metrics/src/main/java/com/palantir/tritium/metrics/MetricRegistries.java:179 | two strings with the same UTF-16 code units are the same string |
| JavaStrings.SupplementarySortsBeforeHighBmp | tritium-metrics/src/main/java/com/palantir/tritium/metrics/MetricRegistries.java:179 | the order is by UTF-16 code unit, not by code point: U+10000 sorts before U+FFFF |
| JavaStrings.Trim | tritium-metrics/src/main/java/com/palantir/tritium/metrics/MetricRegistries.java:209 | the trimmed string is the slice of the input between a prefix and a suffix made only of characters `trim` removes; it starts and ends with a kept character, and is empty iff every character is one `trim` removes |
| ExecutorMetrics.ToNanos | tritium-metrics/src/main/java/com/palantir/tritium/metrics/executor/TaggedMetricsScheduledExecutorService.java:219 | the period in nanoseconds is exact when it fits a `long` and saturates at the `long` bounds otherwise |
| ExecutorMetrics.CreateMetricName | tritium-metrics/src/main/java/com/palantir/tritium/metrics/executor/TaggedMetricsScheduledExecutorService.java:260-265 | the name is `executor.` followed by the kind, tagged only with `name` = the executor's name |
| ExecutorMetrics.CreateMetricNameRoundTrip | tritium-metrics/src/main/java/com/palantir/tritium/metrics/executor/TaggedMetricsScheduledExecutorService.java:260-265 | the kind and the executor name can be read back from a created metric name |
| ExecutorMetrics.MetricNamesDistinct | tritium-metrics/src/main/java/com/palantir/tritium/metrics/executor/TaggedMetricsScheduledExecutorService.java:69-77 | the eight metrics of an executor have eight different names, and executors of different names share none |
| ExecutorMetrics.NewExecutor | tritium-metrics/src/main/java/com/palantir/tritium/metrics/executor/TaggedMetricsScheduledExecutorService.java:63-78 | the constructor registers eight pairwise distinct names, one per kind, all tagged with the executor's name |
| ExecutorMetrics.CreateAsWritten | tritium-metrics/src/main/java/com/palantir/tritium/metrics/executor/TaggedMetricsScheduledExecutorService.java:53-61 | succeeds iff the registry and the name are non-null, whatever the delegate; a null registry is reported as "delegate" |
| ExecutorMetrics.CreateAsWrittenAcceptsNullDelegate | tritium-metrics/src/main/java/com/palantir/tritium/metrics/executor/TaggedMetricsScheduledExecutorService.java:57 | an executor over a null delegate is built, and a null registry is blamed on the delegate |
| ExecutorMetrics.Create | tritium-metrics/src/main/java/com/palantir/tritium/metrics/MetricRegistries.java:226-234 | succeeds iff delegate, registry and name are all non-null; the error names the first null argument |
| ExecutorMetrics.CreateAgreesOnValidArguments | tritium-metrics/src/main/java/com/palantir/tritium/metrics/executor/TaggedMetricsScheduledExecutorService.java:53-61 | on arguments the corrected `create` accepts, it builds the same executor as the original |
| ExecutorMetrics.Instrument | tritium-metrics/src/main/java/com/palantir/tritium/metrics/executor/TaggedMetricsScheduledExecutorService.java:159-165 | each task of a batch is wrapped once as a callable, keeping count and order |
| ExecutorMetrics.Accept | tritium-metrics/src/main/java/com/palantir/tritium/metrics/executor/TaggedMetricsScheduledExecutorService.java:80-190 | `execute` and the `submit`s add 1 to `submitted`, the `invoke`s add the task count, `schedule` adds 1 to `scheduledOnce`, the periodic schedules add 1 to `scheduledRepetitively`, lifecycle calls add nothing, and no run-time metric moves; the delegate receives the same call with only the wrapping added |
| ExecutorMetrics.AcceptWrapsEachTaskOnce | tritium-metrics/src/main/java/com/palantir/tritium/metrics/executor/TaggedMetricsScheduledExecutorService.java:80-165 | the delegate gets each task once, in order, callables as callables, and only fixed-rate tasks in the overrun-checking wrapper, which holds the period in nanoseconds |
| ExecutorMetrics.AcceptAllCounts | tritium-metrics/src/main/java/com/palantir/tritium/metrics/executor/TaggedMetricsScheduledExecutorService.java:105-157 | over any series of calls, `submitted` grows by the number of tasks submitted or invoked, and the scheduling meters grow by the number of schedule calls |
| ExecutorMetrics.PercentOfPeriod | tritium-metrics/src/main/java/com/palantir/tritium/metrics/executor/TaggedMetricsScheduledExecutorService.java:235 | for non-negative elapsed times too short to overflow and a positive period, the sample is `100 * elapsed / period` rounded down |
| ExecutorMetrics.Enter | tritium-metrics/src/main/java/com/palantir/tritium/metrics/executor/TaggedMetricsScheduledExecutorService.java:202 | a wrapper's body starts with one more task running and nothing else changed |
| ExecutorMetrics.Leave | tritium-metrics/src/main/java/com/palantir/tritium/metrics/executor/TaggedMetricsScheduledExecutorService.java:203-236 | whatever the body did, the duration is recorded, `running` drops by one and `completed` rises by one; the body's outcome passes through; a fixed-rate occurrence counts an overrun iff it took strictly longer than its period and records its sample; a zero period throws from the division in place of the body's outcome |
| ExecutorMetrics.Run | tritium-metrics/src/main/java/com/palantir/tritium/metrics/executor/TaggedMetricsScheduledExecutorService.java:200-257 | after a run, `running` is back at its prior value, and `completed` and the duration count are one higher; the body's outcome reaches the caller, except that a fixed-rate task with a zero period throws the division's `ArithmeticException` in its place |
| ExecutorMetrics.RunningCountsRunsInFlight | tritium-metrics/src/main/java/com/palantir/tritium/metrics/executor/TaggedMetricsScheduledExecutorService.java:192-258 | under any interleaving of runs, `running` counts runs entered and not yet left, and `completed` and the durations count the runs left |
| ExecutorMetrics.OverrunRecordsAtLeastHundred | tritium-metrics/src/main/java/com/palantir/tritium/metrics/executor/TaggedMetricsScheduledExecutorService.java:232-235 | an occurrence that overran records a sample of at least 100, when `100 * elapsed` fits a `long` |
| ExecutorMetrics.OverflowedOverrunRecordsZero | tritium-metrics/src/main/java/com/palantir/tritium/metrics/executor/TaggedMetricsScheduledExecutorService.java:232-235 | beyond that bound `100L * elapsed` wraps: 2^62 ns over a 1 ns period counts an overrun yet records 0 |
| ExecutorMetrics.WithinPeriodRecordsAtMostHundred | tritium-metrics/src/main/java/com/palantir/tritium/metrics/executor/TaggedMetricsScheduledExecutorService.java:232-235 | an occurrence within its period records a sample of at most 100, when `100 * elapsed` fits a `long` |
| ExecutorMetrics.OverrunCanRecordExactlyHundred | tritium-metrics/src/main/java/com/palantir/tritium/metrics/executor/TaggedMetricsScheduledExecutorService.java:232-235 | a run one nanosecond over a 200 ns period counts an overrun and records exactly 100 |

Two points of the code a reader might expect otherwise:

- An overrunning occurrence records a percent-of-period sample of *at
  least* 100, not strictly more than 100, because overrun is `elapsed >
  period` and the division truncates.
- The `schedule` methods mark only their scheduling meter, not
  `submitted`.

## Left out

- Logging (`logInvocationWarning` and its formatting) is a side effect only.
- Reflection and proxy generation are not modelled. This covers
  `Method.invoke` itself, equals/hashCode routing and `Proxy` classes. The
  delegate is a given outcome, and `ReflectiveInvoke` only states how
  reflection wraps it.
- The `InvocationEventProxy` constructors and their null checks are not
  modelled. `CompositeInvocationEventHandler` is not part of this model; the
  handlers appear as one handler whose answers the script gives.
- `getSystemPropertySupplier` and `InstrumentationProperties` are not part of
  this model. They produce suppliers; the model takes any supplier.
- `synchronized (registry)`, and concurrency in general, are not modelled.
  Each registry call is one atomic step. Interference inside `addMetric` is
  the `Race` parameter. Without other threads, the `registry.remove` in
  `registerOrReplace` always succeeds, so its `false` branch is unreachable
  in the model.
- Meter rates, timer and histogram reservoirs, and clocks are not modelled.
  Meters and counters are counts, and timers and histograms are sequences of
  recorded samples. Elapsed nanoseconds are an input; they are non-negative
  and fit a `long`, as differences of a monotonic clock do.
- ExecutorMetrics.Counters: the counts are unbounded integers. A 64-bit
  `LongAdder` overflow after 2^63 events is not modelled.
- Several executors created under the same name share their metrics in the
  registry. The model keeps one record of counters per executor.
- Futures, cancellation, timeouts and the delegate executor's scheduling
  are not modelled. The model records the exact call each method makes on
  the delegate. Whatever the delegate returns or throws is handed back
  unchanged, so it is not modelled.
- `CacheMetricSet.create` is not part of this model. A cache's metric set is
  given as its list of named metrics.
- The remaining `registerCache` parameters are not modelled. The null checks
  of the registry, cache and clock, and the clock itself, do not exist in
  the model.
- The reservoir-creating factories, the default gauges and `instrument` for
  non-scheduled executors (`MetricRegistries.java:68-103, 247-258`) are
  outside the core. `instrument` for scheduled executors appears only as
  the behaviour the corrected `ExecutorMetrics.Create` follows.
- ExecutorMetrics.CreateMetricName: the empty-kind case follows the
  dotted-name join of the metrics library. Its code is not part of this
  model, and the executor never uses that case.
- EventProxy.IsEnabled: a throwable from the handler or the filter is folded
  into "answered something other than true". That is the behaviour; which
  throwable it was is only logged.
- JavaStrings.Less: a Java `String` may hold an unpaired surrogate, and a
  Dafny character cannot. Metric names with one are not representable, so
  the order is modelled only for well-formed UTF-16 strings.

## Findings

| source | as written | input that shows it | evidently intended | confidence | as-written member | corrected member |
|---|---|---|---|---|---|---|
| tritium-metrics/src/main/java/com/palantir/tritium/metrics/executor/TaggedMetricsScheduledExecutorService.java:57 | `create` checks `registry` under the message "delegate", so the delegate is never checked | `create(null, registry, "pool")` returns an executor whose every submission marks its meter and then fails on the null delegate; `create(delegate, null, "pool")` reports a null "delegate" | check the delegate under "delegate", then the registry and the name, as `MetricRegistries.instrument` (`MetricRegistries.java:226-234`) does | high (not executed) | ExecutorMetrics.CreateAsWrittenAcceptsNullDelegate | ExecutorMetrics.Create |

=== FILE: event_handlers.dfy ===
/**
  `AbstractInvocationEventHandler`: the base of every event handler. It keeps
  the enabled flag behind a supplier that is asked again on every call, and
  normalises a null argument array to one shared empty array.
 */
module EventHandlers {
  import opened JavaValues

  /**
    A Java `Object[]` as a handler sees it: the class's own shared empty
    array `NO_ARGS`, or another array a caller passed (its identity and
    elements). An array a caller obtained from `nullToEmpty` may be `NO_ARGS`
    itself, and is then passed as `NoArgs`.
   */
  datatype ArgArray = NoArgs | CallerArray(id: nat, elems: seq<Ref>)

  /** The elements of an array. */
  function Elements(a: ArgArray): seq<Ref> {
    match a
    case NoArgs => []
    case CallerArray(_, elems) => elems
  }

  /** `nullToEmpty`: a null array becomes the shared empty array, any other array is kept. */
  function NullToEmpty(args: Option<ArgArray>): (r: ArgArray)
    ensures args.Some? ==> r == args.value
    ensures args.None? ==> r == NoArgs && |Elements(r)| == 0
  {
    match args
    case None => NoArgs
    case Some(a) => a
  }

  /** Normalising twice is normalising once. */
  lemma NullToEmptyIdempotent(args: Option<ArgArray>)
    ensures NullToEmpty(Some(NullToEmpty(args))) == NullToEmpty(args)
  {
  }

  /** Normalisation changes nothing but absence: the elements a caller passed are the ones handed on. */
  lemma NullToEmptyKeepsElements(args: Option<ArgArray>)
    ensures args.Some? ==> Elements(NullToEmpty(args)) == Elements(args.value)
    ensures args.None? ==> Elements(NullToEmpty(args)) == []
  {
  }

  /** The moment a question is asked; a supplier may answer differently at different moments. */
  type Moment = nat

  /** An event handler, seen through its enabled flag. */
  datatype EventHandler = EventHandler(isEnabledSupplier: Moment -> bool)

  /** An `isEnabled` answer, with the handler as the call leaves it. */
  datatype Answered = Answered(enabled: bool, after: EventHandler)

  /**
    `isEnabled`: the supplier's answer at the moment of the call. The call
    records nothing, so the handler it leaves is the handler it was given.
   */
  function IsEnabled(h: EventHandler, now: Moment): (r: Answered)
    ensures r.after == h
    ensures r.enabled == h.isEnabledSupplier(now)
  {
    Answered(h.isEnabledSupplier(now), h)
  }

  /** The no-argument constructor: the supplier is the constant `TRUE`. */
  function AlwaysEnabledHandler(): (h: EventHandler)
    ensures forall now: Moment :: IsEnabled(h, now).enabled
  {
    EventHandler(_ => true)
  }

  /** The supplier constructor: a null supplier is rejected, any other is kept. */
  function NewHandler(supplier: Option<Moment -> bool>): (r: Result<EventHandler, NullPointer>)
    ensures supplier.None? <==> r.Failure?
    ensures r.Failure? ==> r.error == NullPointer("isEnabledSupplier")
    ensures r.Success? ==> forall now: Moment :: IsEnabled(r.value, now).enabled == supplier.value(now)
  {
    match supplier
    case None => Failure(NullPointer("isEnabledSupplier"))
    case Some(s) => Success(EventHandler(s))
  }

  /**
    A series of `isEnabled` calls on one handler, each on the handler the
    previous call left: no answer depends on an earlier call, so every answer
    is the supplier's answer at the moment of that call.
   */
  method PollEnabled(h: EventHandler, moments: seq<Moment>) returns (answers: seq<bool>, last: EventHandler)
    ensures |answers| == |moments|
    ensures forall i | 0 <= i < |moments| :: answers[i] == h.isEnabledSupplier(moments[i])
    ensures last == h
  {
    answers := [];
    last := h;
    var i := 0;
    while i < |moments|
      invariant 0 <= i <= |moments|
      invariant |answers| == i
      invariant last == h
      invariant forall j | 0 <= j < i :: answers[j] == h.isEnabledSupplier(moments[j])
    {
      var q := IsEnabled(last, moments[i]);
      answers := answers + [q.enabled];
      last := q.after;
      i := i + 1;
    }
  }
}

=== FILE: event_proxy.dfy ===
/**
  The per-call protocol of `InvocationEventProxy`: decide whether a call is
  instrumented, then run pre-hook, delegate, and success-or-failure hook, and
  let only the delegate's own result or throwable reach the caller.

  One intercepted call is modelled as a function of a `Script` (what each
  collaborator does when called) to the caller-visible `Outcome` together
  with the trace of collaborator calls made on the way.
 */
module EventProxy {
  import opened JavaValues

  /** What one call of a collaborator does: give back a value or throw. */
  datatype Answer<+T> = Gives(value: T) | Raises(thrown: Throwable)

  /** One intercepted call: the proxy instance, the invoked method, and its (never null) argument array. */
  datatype Call = Call(proxy: Ref, operation: nat, args: seq<Ref>)

  /**
    How the collaborators of one intercepted call behave:
    the event handler's `isEnabled`, the filter's `shouldInstrument`,
    the handler's `preInvocation` (giving the context, possibly null),
    `onSuccess`, `onFailure`, and the delegate's own method body.
   */
  datatype Script = Script(
    handlerEnabled: Answer<bool>,
    shouldInstrument: Answer<bool>,
    preInvocation: Answer<Ref>,
    onSuccess: Answer<()>,
    onFailure: Answer<()>,
    delegate: Outcome)

  /** A call the proxy makes to one of its collaborators, with its arguments. */
  datatype Event =
    | HandlerIsEnabled
    | ShouldInstrument(call: Call)
    | PreInvocation(call: Call)
    | DelegateInvoked(operation: nat, args: seq<Ref>)
    | OnSuccess(context: Ref, result: Ref)
    | OnFailure(context: Ref, cause: Throwable)

  /** A computed result together with the collaborator calls that produced it, in order. */
  datatype Run<+T> = Run(result: T, trace: seq<Event>)

  datatype Kind = EnabledQuery | FilterQuery | PreHook | DelegateCall | SuccessHook | FailureHook

  function KindOf(e: Event): Kind {
    match e
    case HandlerIsEnabled => EnabledQuery
    case ShouldInstrument(_) => FilterQuery
    case PreInvocation(_) => PreHook
    case DelegateInvoked(_, _) => DelegateCall
    case OnSuccess(_, _) => SuccessHook
    case OnFailure(_, _) => FailureHook
  }

  /** Number of calls of kind `k` in a trace. */
  function Count(trace: seq<Event>, k: Kind): nat {
    if |trace| == 0 then 0
    else (if KindOf(trace[0]) == k then 1 else 0) + Count(trace[1..], k)
  }

  lemma {:induction false} CountAppend(a: seq<Event>, b: seq<Event>, k: Kind)
    ensures Count(a + b, k) == Count(a, k) + Count(b, k)
  {
    if |a| == 0 {
      assert a + b == b;
    } else {
      assert (a + b)[1..] == a[1..] + b;
      CountAppend(a[1..], b, k);
    }
  }

  lemma CountSingle(e: Event, k: Kind)
    ensures Count([e], k) == if KindOf(e) == k then 1 else 0
  {
    assert [e][1..] == [];
  }

  lemma CountIsPositiveWhenPresent(trace: seq<Event>, e: Event)
    requires e in trace
    ensures Count(trace, KindOf(e)) >= 1
  {
    var i :| 0 <= i < |trace| && trace[i] == e;
    assert trace == trace[..i] + [e] + trace[i + 1..];
    CountAppend(trace[..i] + [e], trace[i + 1..], KindOf(e));
    CountAppend(trace[..i], [e], KindOf(e));
    CountSingle(e, KindOf(e));
  }

  /** No two calls in the trace are of the same kind. */
  predicate KindsDistinct(trace: seq<Event>) {
    forall i, j | 0 <= i < j < |trace| :: KindOf(trace[i]) != KindOf(trace[j])
  }

  predicate HasKind(trace: seq<Event>, k: Kind) {
    exists i | 0 <= i < |trace| :: KindOf(trace[i]) == k
  }

  /** In a trace with at most one call of each kind, `Count` is 0 or 1. */
  lemma {:induction false} CountWhenKindsDistinct(trace: seq<Event>, k: Kind)
    requires KindsDistinct(trace)
    ensures Count(trace, k) == if HasKind(trace, k) then 1 else 0
  {
    if |trace| > 0 {
      var rest := trace[1..];
      assert KindsDistinct(rest) by {
        forall i, j | 0 <= i < j < |rest|
          ensures KindOf(rest[i]) != KindOf(rest[j])
        {
          assert rest[i] == trace[i + 1] && rest[j] == trace[j + 1];
        }
      }
      CountWhenKindsDistinct(rest, k);
      if KindOf(trace[0]) == k {
        assert !HasKind(rest, k) by {
          forall i | 0 <= i < |rest| ensures KindOf(rest[i]) != k {
            assert rest[i] == trace[i + 1];
          }
        }
      } else {
        assert HasKind(trace, k) <==> HasKind(rest, k) by {
          if HasKind(trace, k) {
            var i :| 0 <= i < |trace| && KindOf(trace[i]) == k;
            assert rest[i - 1] == trace[i];
          }
          if HasKind(rest, k) {
            var i :| 0 <= i < |rest| && KindOf(rest[i]) == k;
            assert trace[i + 1] == rest[i];
          }
        }
      }
    }
  }

  // ---------------------------------------------------------------------
  // The protocol, one function per method of the proxy.
  // ---------------------------------------------------------------------

  /**
    `isEnabled`: the handler is asked first and the filter only when the
    handler said yes; any throwable from either question means "not enabled".
   */
  function IsEnabled(s: Script, c: Call): (r: Run<bool>)
    ensures r.result <==> s.handlerEnabled == Gives(true) && s.shouldInstrument == Gives(true)
    ensures |r.trace| >= 1 && r.trace[0] == HandlerIsEnabled
    ensures ShouldInstrument(c) in r.trace <==> s.handlerEnabled == Gives(true)
    ensures forall e | e in r.trace :: e == HandlerIsEnabled || e == ShouldInstrument(c)
    ensures r.trace == if s.handlerEnabled == Gives(true) then [HandlerIsEnabled, ShouldInstrument(c)] else [HandlerIsEnabled]
  {
    match s.handlerEnabled
    case Raises(_) => Run(false, [HandlerIsEnabled])
    case Gives(handlerOn) =>
      if !handlerOn then Run(false, [HandlerIsEnabled])
      else
        match s.shouldInstrument
        case Raises(_) => Run(false, [HandlerIsEnabled, ShouldInstrument(c)])
        case Gives(instrument) => Run(instrument, [HandlerIsEnabled, ShouldInstrument(c)])
  }

  /** Reflection's `Method.invoke`: whatever the delegate throws arrives wrapped. */
  function ReflectiveInvoke(delegate: Outcome): (r: Outcome)
    ensures r.Threw? <==> delegate.Threw?
    ensures r.Threw? ==> r.thrown.InvocationTarget? && r.thrown.cause == delegate.thrown
    ensures r.Returned? ==> r == delegate
  {
    match delegate
    case Returned(v) => Returned(v)
    case Threw(t) => Threw(InvocationTarget(t))
  }

  /**
    `execute`: calls the delegate reflectively and strips the reflective
    wrapper, so the caller sees the delegate's own result or throwable.
   */
  function Execute(s: Script, c: Call): (r: Run<Outcome>)
    ensures r.result == s.delegate
    ensures r.trace == [DelegateInvoked(c.operation, c.args)]
  {
    var reflected := ReflectiveInvoke(s.delegate);
    var result :=
      match reflected
      case Threw(InvocationTarget(cause)) => Threw(cause)
      case _ => reflected;
    Run(result, [DelegateInvoked(c.operation, c.args)])
  }

  /**
    `handlePreInvocation`: a `RuntimeException` from the pre-hook gives a null
    context; any other throwable escapes.
   */
  function HandlePreInvocation(s: Script, c: Call): (r: Run<Answer<Ref>>)
    ensures r.trace == [PreInvocation(c)]
    ensures s.preInvocation.Gives? ==> r.result == s.preInvocation
    ensures s.preInvocation.Raises? && IsRuntime(s.preInvocation.thrown) ==> r.result == Gives(Null)
    ensures r.result.Raises? <==> s.preInvocation.Raises? && !IsRuntime(s.preInvocation.thrown)
    ensures r.result.Raises? ==> r.result.thrown == s.preInvocation.thrown
  {
    match s.preInvocation
    case Gives(context) => Run(Gives(context), [PreInvocation(c)])
    case Raises(t) =>
      if IsRuntime(t) then Run(Gives(Null), [PreInvocation(c)])
      else Run(Raises(t), [PreInvocation(c)])
  }

  /**
    `handleOnSuccess`: the result is handed back whatever `onSuccess` does,
    unless it throws something other than a `RuntimeException`.
   */
  function HandleOnSuccess(s: Script, context: Ref, result: Ref): (r: Run<Outcome>)
    ensures r.trace == [OnSuccess(context, result)]
    ensures r.result == Returned(result) <==> s.onSuccess.Gives? || IsRuntime(s.onSuccess.thrown)
    ensures r.result.Threw? ==> r.result.thrown == s.onSuccess.thrown
    ensures s.onSuccess.Raises? && !IsRuntime(s.onSuccess.thrown) ==> r.result == Threw(s.onSuccess.thrown)
  {
    match s.onSuccess
    case Gives(_) => Run(Returned(result), [OnSuccess(context, result)])
    case Raises(t) =>
      if IsRuntime(t) then Run(Returned(result), [OnSuccess(context, result)])
      else Run(Threw(t), [OnSuccess(context, result)])
  }

  /**
    `handleOnFailure`: gives back the cause to be rethrown whatever
    `onFailure` does, unless `onFailure` throws something other than a
    `RuntimeException`, which then propagates in its place.
   */
  function HandleOnFailure(s: Script, context: Ref, cause: Throwable): (r: Run<Throwable>)
    ensures r.trace == [OnFailure(context, cause)]
    ensures r.result == cause || (s.onFailure.Raises? && r.result == s.onFailure.thrown)
    ensures s.onFailure.Gives? || IsRuntime(s.onFailure.thrown) ==> r.result == cause
    ensures s.onFailure.Raises? && !IsRuntime(s.onFailure.thrown) ==> r.result == s.onFailure.thrown
  {
    match s.onFailure
    case Gives(_) => Run(cause, [OnFailure(context, cause)])
    case Raises(t) =>
      if IsRuntime(t) then Run(cause, [OnFailure(context, cause)])
      else Run(t, [OnFailure(context, cause)])
  }

  /** Strips one reflective wrapper, if there is one. */
  function Unwrapped(t: Throwable): (r: Throwable)
    ensures !t.InvocationTarget? ==> r == t
    ensures t.InvocationTarget? ==> r == t.cause
  {
    if t.InvocationTarget? then t.cause else t
  }

  /** `invocationFailed`: `onFailure` sees the cause with one more wrapper stripped. */
  function InvocationFailed(s: Script, context: Ref, cause: Throwable): (r: Run<Throwable>)
    ensures r.trace == [OnFailure(context, Unwrapped(cause))]
    ensures s.onFailure.Gives? || IsRuntime(s.onFailure.thrown) ==> r.result == Unwrapped(cause)
    ensures r.result == Rethrown(s, Unwrapped(cause))
  {
    if cause.InvocationTarget? then HandleOnFailure(s, context, cause.cause)
    else HandleOnFailure(s, context, cause)
  }

  /** `invoke`: run the delegate, then the success hook if it returned. */
  function Invoke(s: Script, context: Ref, c: Call): (r: Run<Outcome>)
    ensures s.delegate.Threw? ==> r == Run(s.delegate, [DelegateInvoked(c.operation, c.args)])
    ensures s.delegate.Returned? ==>
      r.trace == [DelegateInvoked(c.operation, c.args), OnSuccess(context, s.delegate.value)]
  {
    var e := Execute(s, c);
    match e.result
    case Threw(_) => e
    case Returned(v) =>
      var h := HandleOnSuccess(s, context, v);
      Run(h.result, e.trace + h.trace)
  }

  /**
    `instrumentInvocation`: pre-hook, then `invoke`; whatever `invoke` throws
    (the delegate's throwable, or a non-runtime throwable of `onSuccess`)
    goes through `invocationFailed` and is rethrown.
   */
  function InstrumentInvocation(s: Script, c: Call): (r: Run<Outcome>)
    ensures |r.trace| >= 1 && r.trace[0] == PreInvocation(c)
    ensures s.preInvocation.Raises? && !IsRuntime(s.preInvocation.thrown) ==>
      r == Run(Threw(s.preInvocation.thrown), [PreInvocation(c)])
  {
    var p := HandlePreInvocation(s, c);
    match p.result
    case Raises(t) => Run(Threw(t), p.trace)
    case Gives(context) =>
      var i := Invoke(s, context, c);
      match i.result
      case Returned(v) => Run(Returned(v), p.trace + i.trace)
      case Threw(t) =>
        var f := InvocationFailed(s, context, t);
        Run(Threw(f.result), p.trace + i.trace + f.trace)
  }

  /**
    `handleInvocation`: the entry point for every intercepted call. The
    handler is asked first, the filter only after a true answer, and both
    before anything else runs.
   */
  function HandleInvocation(s: Script, c: Call): (r: Run<Outcome>)
    ensures !Enabled(s) ==> r.result == s.delegate
    ensures |r.trace| >= 2 && r.trace[0] == HandlerIsEnabled
    ensures s.handlerEnabled == Gives(true) ==> |r.trace| >= 3 && r.trace[..2] == [HandlerIsEnabled, ShouldInstrument(c)]
    ensures s.handlerEnabled != Gives(true) ==> r.trace == [HandlerIsEnabled, DelegateInvoked(c.operation, c.args)]
    ensures s.handlerEnabled == Gives(true) && !Enabled(s) ==>
      r.trace == [HandlerIsEnabled, ShouldInstrument(c), DelegateInvoked(c.operation, c.args)]
  {
    var e := IsEnabled(s, c);
    var body := if e.result then InstrumentInvocation(s, c) else Execute(s, c);
    Run(body.result, e.trace + body.trace)
  }

  // ---------------------------------------------------------------------
  // Properties of the whole protocol.
  // ---------------------------------------------------------------------

  /** Whether both enablement questions answered yes. */
  predicate Enabled(s: Script) {
    s.handlerEnabled == Gives(true) && s.shouldInstrument == Gives(true)
  }

  /** The pre-hook's failure, if any, is one the proxy swallows. */
  predicate PreHookSwallowed(s: Script) {
    s.preInvocation.Gives? || IsRuntime(s.preInvocation.thrown)
  }

  /** The context the success and failure hooks receive when the pre-hook did not escape. */
  function ContextOf(s: Script): Ref {
    match s.preInvocation
    case Gives(context) => context
    case Raises(_) => Null
  }

  /** What the caller sees on the instrumented path when `onFailure` gets `cause`. */
  function Rethrown(s: Script, cause: Throwable): Throwable {
    if s.onFailure.Raises? && !IsRuntime(s.onFailure.thrown) then s.onFailure.thrown else cause
  }

  /**
    Not enabled: the delegate runs exactly once, no pre, success or failure
    hook is called, and the delegate's outcome reaches the caller unchanged.
   */
  lemma DisabledPassesThrough(s: Script, c: Call)
    requires !Enabled(s)
    ensures HandleInvocation(s, c).trace == IsEnabled(s, c).trace + [DelegateInvoked(c.operation, c.args)]
    ensures HandleInvocation(s, c).result == s.delegate
    ensures Count(HandleInvocation(s, c).trace, DelegateCall) == 1
    ensures Count(HandleInvocation(s, c).trace, PreHook) == 0
    ensures Count(HandleInvocation(s, c).trace, SuccessHook) == 0
    ensures Count(HandleInvocation(s, c).trace, FailureHook) == 0
  {
    var e := IsEnabled(s, c);
    var d := DelegateInvoked(c.operation, c.args);
    var tr := HandleInvocation(s, c).trace;
    assert tr == e.trace + [d];
    forall k | k != EnabledQuery && k != FilterQuery
      ensures Count(tr, k) == if k == DelegateCall then 1 else 0
    {
      TraceOfOtherKinds(e.trace, c, k);
      CountAppend(e.trace, [d], k);
      CountSingle(d, k);
    }
  }

  lemma TraceOfOtherKinds(trace: seq<Event>, c: Call, k: Kind)
    requires forall e | e in trace :: e == HandlerIsEnabled || e == ShouldInstrument(c)
    requires k != EnabledQuery && k != FilterQuery
    ensures Count(trace, k) == 0
  {
    if |trace| > 0 {
      assert trace[0] in trace;
      assert forall e | e in trace[1..] :: e in trace;
      TraceOfOtherKinds(trace[1..], c, k);
    }
  }

  /** The trace of an enabled call: both questions, then the instrumented protocol. */
  lemma EnabledTrace(s: Script, c: Call)
    requires Enabled(s)
    ensures HandleInvocation(s, c) ==
      Run(InstrumentInvocation(s, c).result,
          [HandlerIsEnabled, ShouldInstrument(c)] + InstrumentInvocation(s, c).trace)
  {
  }

  /**
    Enabled: `preInvocation` is called exactly once, with the proxy, method and
    arguments of the call, right after the two enablement questions.
   */
  lemma PreInvocationCalledOnce(s: Script, c: Call)
    requires Enabled(s)
    ensures Count(HandleInvocation(s, c).trace, PreHook) == 1
    ensures HandleInvocation(s, c).trace[2] == PreInvocation(c)
  {
    EnabledCallTrace(s, c);
    PreHookCount(s, c);
  }

  /** The exact collaborator calls of an enabled call, in order. */
  function CallTrace(s: Script, c: Call): seq<Event>
    requires Enabled(s)
  {
    var context := ContextOf(s);
    var d := DelegateInvoked(c.operation, c.args);
    if !PreHookSwallowed(s) then [HandlerIsEnabled, ShouldInstrument(c), PreInvocation(c)]
    else
      match s.delegate
      case Threw(t) =>
        [HandlerIsEnabled, ShouldInstrument(c), PreInvocation(c), d, OnFailure(context, Unwrapped(t))]
      case Returned(v) =>
        if s.onSuccess.Gives? || IsRuntime(s.onSuccess.thrown) then
          [HandlerIsEnabled, ShouldInstrument(c), PreInvocation(c), d, OnSuccess(context, v)]
        else
          [HandlerIsEnabled, ShouldInstrument(c), PreInvocation(c), d, OnSuccess(context, v),
           OnFailure(context, Unwrapped(s.onSuccess.thrown))]
  }

  /** An enabled call makes exactly the calls `CallTrace` lists. */
  lemma EnabledCallTrace(s: Script, c: Call)
    requires Enabled(s)
    ensures HandleInvocation(s, c).trace == CallTrace(s, c)
  {
    EnabledTrace(s, c);
  }

  /** An enabled call calls `preInvocation` exactly once. */
  lemma PreHookCount(s: Script, c: Call)
    requires Enabled(s)
    ensures Count(CallTrace(s, c), PreHook) == 1
  {
    var tr := CallTrace(s, c);
    CountWhenKindsDistinct(tr, PreHook);
    assert KindOf(tr[2]) == PreHook;
  }

  /** An enabled call runs the delegate once, unless the pre-hook escaped. */
  lemma DelegateCount(s: Script, c: Call)
    requires Enabled(s)
    ensures Count(CallTrace(s, c), DelegateCall) == if PreHookSwallowed(s) then 1 else 0
  {
    var tr := CallTrace(s, c);
    CountWhenKindsDistinct(tr, DelegateCall);
    if PreHookSwallowed(s) { assert KindOf(tr[3]) == DelegateCall; }
  }

  /** `onSuccess` is called once exactly when the delegate returned. */
  lemma SuccessHookCount(s: Script, c: Call)
    requires Enabled(s)
    ensures Count(CallTrace(s, c), SuccessHook) ==
      if PreHookSwallowed(s) && s.delegate.Returned? then 1 else 0
  {
    var tr := CallTrace(s, c);
    CountWhenKindsDistinct(tr, SuccessHook);
    if PreHookSwallowed(s) && s.delegate.Returned? { assert KindOf(tr[4]) == SuccessHook; }
  }

  /**
    `onFailure` is called once exactly when the delegate threw or `onSuccess`
    threw something other than a `RuntimeException`.
   */
  lemma FailureHookCount(s: Script, c: Call)
    requires Enabled(s)
    ensures Count(CallTrace(s, c), FailureHook) ==
      if PreHookSwallowed(s) && (s.delegate.Threw? || !(s.onSuccess.Gives? || IsRuntime(s.onSuccess.thrown)))
      then 1 else 0
  {
    var tr := CallTrace(s, c);
    CountWhenKindsDistinct(tr, FailureHook);
    if |tr| == 5 && s.delegate.Threw? { assert KindOf(tr[4]) == FailureHook; }
    if |tr| == 6 { assert KindOf(tr[5]) == FailureHook; }
  }

  // ---------------------------------------------------------------------
  // Caller-visible outcome on each path.
  // ---------------------------------------------------------------------

  /**
    Enabled and the delegate returns `v`: `onSuccess` is called once with the
    pre-hook's context and `v`, `onFailure` is not called, and `v` reaches the
    caller even when `onSuccess` throws a `RuntimeException`.
   */
  lemma DelegateReturns(s: Script, c: Call)
    requires Enabled(s) && PreHookSwallowed(s) && s.delegate.Returned?
    requires s.onSuccess.Gives? || IsRuntime(s.onSuccess.thrown)
    ensures HandleInvocation(s, c).result == s.delegate
    ensures OnSuccess(ContextOf(s), s.delegate.value) in HandleInvocation(s, c).trace
    ensures Count(HandleInvocation(s, c).trace, SuccessHook) == 1
    ensures Count(HandleInvocation(s, c).trace, FailureHook) == 0
  {
    EnabledCallTrace(s, c);
    SuccessHookCount(s, c);
    FailureHookCount(s, c);
  }

  /**
    Enabled, the delegate returns, and `onSuccess` throws something other than
    a `RuntimeException`: that throwable goes to `onFailure` and is thrown in
    place of the result.
   */
  lemma SuccessHookEscalates(s: Script, c: Call)
    requires Enabled(s) && PreHookSwallowed(s) && s.delegate.Returned?
    requires s.onSuccess.Raises? && !IsRuntime(s.onSuccess.thrown)
    ensures HandleInvocation(s, c).result == Threw(Rethrown(s, Unwrapped(s.onSuccess.thrown)))
    ensures OnFailure(ContextOf(s), Unwrapped(s.onSuccess.thrown)) in HandleInvocation(s, c).trace
    ensures Count(HandleInvocation(s, c).trace, SuccessHook) == 1
    ensures Count(HandleInvocation(s, c).trace, FailureHook) == 1
  {
    EnabledCallTrace(s, c);
    SuccessHookCount(s, c);
    FailureHookCount(s, c);
  }

  /**
    Enabled and the delegate throws `t`: `onFailure` is called once with the
    pre-hook's context and `t` (one reflective wrapper stripped), `onSuccess`
    is not called, and that same cause is rethrown unless `onFailure` throws
    something other than a `RuntimeException`.
   */
  lemma DelegateThrows(s: Script, c: Call)
    requires Enabled(s) && PreHookSwallowed(s) && s.delegate.Threw?
    ensures HandleInvocation(s, c).result == Threw(Rethrown(s, Unwrapped(s.delegate.thrown)))
    ensures s.onFailure.Gives? || IsRuntime(s.onFailure.thrown) ==>
      HandleInvocation(s, c).result == Threw(Unwrapped(s.delegate.thrown))
    ensures OnFailure(ContextOf(s), Unwrapped(s.delegate.thrown)) in HandleInvocation(s, c).trace
    ensures Count(HandleInvocation(s, c).trace, SuccessHook) == 0
    ensures Count(HandleInvocation(s, c).trace, FailureHook) == 1
  {
    EnabledCallTrace(s, c);
    SuccessHookCount(s, c);
    FailureHookCount(s, c);
  }

  /**
    Enabled and the pre-hook throws something other than a `RuntimeException`:
    it escapes before the delegate runs, and no other hook is called.
   */
  lemma PreHookEscapes(s: Script, c: Call)
    requires Enabled(s) && !PreHookSwallowed(s)
    ensures HandleInvocation(s, c).result == Threw(s.preInvocation.thrown)
    ensures Count(HandleInvocation(s, c).trace, DelegateCall) == 0
    ensures Count(HandleInvocation(s, c).trace, SuccessHook) == 0
    ensures Count(HandleInvocation(s, c).trace, FailureHook) == 0
  {
    EnabledCallTrace(s, c);
    DelegateCount(s, c);
    SuccessHookCount(s, c);
    FailureHookCount(s, c);
  }

  /** Every throwable a hook raises is a `RuntimeException`, which the proxy swallows. */
  predicate HooksFailOnlyWithRuntime(s: Script) {
    && PreHookSwallowed(s)
    && (s.onSuccess.Gives? || IsRuntime(s.onSuccess.thrown))
    && (s.onFailure.Gives? || IsRuntime(s.onFailure.thrown))
  }

  /** The delegate's outcome with one reflective wrapper stripped from a throwable. */
  function Peeled(o: Outcome): (r: Outcome)
    ensures o.Returned? ==> r == o
    ensures o.Threw? ==> r.Threw? && r.thrown == Unwrapped(o.thrown)
  {
    match o
    case Returned(_) => o
    case Threw(t) => Threw(Unwrapped(t))
  }

  /**
    Observers are transparent: when hooks fail only with runtime exceptions
    (and whatever the enablement questions do), the caller sees what the
    undecorated call produces; on the instrumented path a throwable that is
    itself an `InvocationTargetException` arrives with one wrapper stripped.
   */
  lemma ObserversAreTransparent(s: Script, c: Call)
    requires HooksFailOnlyWithRuntime(s)
    ensures HandleInvocation(s, c).result == if Enabled(s) then Peeled(s.delegate) else s.delegate
    ensures s.delegate.Threw? && !s.delegate.thrown.InvocationTarget? ==>
      HandleInvocation(s, c).result == s.delegate
    ensures s.delegate.Returned? ==> HandleInvocation(s, c).result == s.delegate
  {
    if Enabled(s) {
      if s.delegate.Returned? {
        DelegateReturns(s, c);
      } else {
        DelegateThrows(s, c);
      }
    }
  }

  // ---------------------------------------------------------------------
  // toString
  // ---------------------------------------------------------------------

  /** What a proxy forwards to: a plain object, a null reference, or another proxy. */
  datatype Target = Component(text: string) | NullTarget | Proxy(delegate: Target)

  /** The object at the bottom of a chain of proxies. */
  function Innermost(t: Target): (r: Target)
    ensures !r.Proxy?
  {
    match t
    case Proxy(d) => Innermost(d)
    case _ => t
  }

  /** `String.valueOf` of a non-proxy object. */
  function Describe(t: Target): string
    requires !t.Proxy?
  {
    match t
    case Component(text) => text
    case NullTarget => "null"
  }

  /** `toString` of a proxy is `String.valueOf` of its delegate. */
  function ToString(t: Target): (r: string)
    ensures r == Describe(Innermost(t))
  {
    match t
    case Component(text) => text
    case NullTarget => "null"
    case Proxy(d) => ToString(d)
  }

  /** `n` proxies stacked on top of `t`. */
  function Stacked(t: Target, n: nat): (r: Target)
    ensures n > 0 ==> r.Proxy?
  {
    if n == 0 then t else Proxy(Stacked(t, n - 1))
  }

  /** Nesting proxies does not change the string a caller sees. */
  lemma {:induction false} NestingKeepsToString(t: Target, n: nat)
    ensures ToString(Stacked(t, n)) == ToString(t)
  {
    if n > 0 {
      NestingKeepsToString(t, n - 1);
    }
  }
}

=== FILE: executor_metrics.dfy ===
/**
  `TaggedMetricsScheduledExecutorService`: a scheduled executor that hands
  every task to a delegate executor wrapped in a bookkeeping wrapper, and
  keeps eight metrics about submission, running, completion, duration and
  periodic overrun.
 */
module ExecutorMetrics {
  import opened JavaValues

  // ---------------------------------------------------------------------
  // Time units
  // ---------------------------------------------------------------------

  datatype TimeUnit = Nanoseconds | Microseconds | Milliseconds | Seconds | Minutes | Hours | Days

  function NanosPerUnit(u: TimeUnit): (r: nat)
    ensures r >= 1
  {
    match u
    case Nanoseconds => 1
    case Microseconds => 1_000
    case Milliseconds => 1_000_000
    case Seconds => 1_000_000_000
    case Minutes => 60_000_000_000
    case Hours => 3_600_000_000_000
    case Days => 86_400_000_000_000
  }

  /**
    `TimeUnit.toNanos`: the exact number of nanoseconds when it fits in a
    `long`, saturated to `Long.MAX_VALUE` or `Long.MIN_VALUE` otherwise.
   */
  function ToNanos(d: Long, u: TimeUnit): (r: Long)
    ensures u == Nanoseconds ==> r == d
    ensures -LongMax <= d * NanosPerUnit(u) <= LongMax ==> r == d * NanosPerUnit(u)
    ensures d * NanosPerUnit(u) > LongMax ==> r == LongMax
    ensures d * NanosPerUnit(u) < -LongMax && u != Nanoseconds ==> r == LongMin
  {
    var s := NanosPerUnit(u);
    var over := LongMax / s;
    SaturationBounds(d, s);
    if u == Nanoseconds then d
    else if d > over then LongMax
    else if d < -over then LongMin
    else d * s
  }

  /** `d > MAX / s` and `d < -(MAX / s)` are exactly the overflow conditions of `d * s`. */
  lemma SaturationBounds(d: int, s: nat)
    requires s >= 1
    ensures d > LongMax / s <==> d * s > LongMax
    ensures d < -(LongMax / s) <==> d * s < -LongMax
  {
    var q := LongMax / s;
    assert LongMax == q * s + LongMax % s;
    if d > q {
      MulMonotone(q + 1, d, s);
    } else {
      MulMonotone(d, q, s);
    }
    if d < -q {
      MulMonotone(q + 1, -d, s);
    } else {
      MulMonotone(-q, d, s);
    }
  }

  lemma MulMonotone(a: int, b: int, s: nat)
    requires a <= b
    ensures a * s <= b * s
  {
    var k: nat := b - a;
    assert b * s == a * s + k * s;
  }

  // ---------------------------------------------------------------------
  // Metrics
  // ---------------------------------------------------------------------

  /**
    The eight metrics of one executor, as counts. Meters and counters are
    integers; the timer and the histogram keep every recorded sample.
   */
  datatype Counters = Counters(
    submitted: nat,
    running: int,
    completed: nat,
    durations: seq<nat>,
    scheduledOnce: nat,
    scheduledRepetitively: nat,
    scheduledOverrun: nat,
    percentOfPeriod: seq<Long>)

  const NoActivity: Counters := Counters(0, 0, 0, [], 0, 0, 0, [])

  /** A tagged metric name: a safe name and its safe tags. */
  datatype MetricName = MetricName(safeName: string, safeTags: map<string, string>)

  /** The metric names after `executor.`, in the order the constructor registers them. */
  const MetricKinds: seq<string> := [
    "submitted", "running", "completed", "duration",
    "scheduled.once", "scheduled.repetitively", "scheduled.overrun", "scheduled.percent-of-period"]

  const Prefix: string := "executor."

  /**
    `createMetricName`: `executor.<kind>` (the prefix alone for an empty kind,
    as `MetricRegistry.name` skips empty parts), tagged with the executor name.
   */
  function CreateMetricName(kind: string, name: string): (r: MetricName)
    ensures r.safeTags == map["name" := name]
    ensures |kind| > 0 ==> |r.safeName| == |Prefix| + |kind| && r.safeName[|Prefix|..] == kind
    ensures |kind| > 0 ==> r.safeName[..|Prefix|] == Prefix
    ensures |r.safeName| >= 8 && r.safeName[..8] == "executor"
  {
    MetricName(if |kind| == 0 then "executor" else Prefix + kind, map["name" := name])
  }

  /** The inverse of `CreateMetricName`: the kind after the `executor.` prefix, if the name has it. */
  function KindOfName(n: MetricName): (r: Option<string>)
    ensures r.Some? ==> Prefix + r.value == n.safeName
  {
    if |Prefix| <= |n.safeName| && n.safeName[..|Prefix|] == Prefix then
      assert n.safeName == n.safeName[..|Prefix|] + n.safeName[|Prefix|..];
      Some(n.safeName[|Prefix|..])
    else None
  }

  /** A metric name can be taken apart again into its kind and its executor name. */
  lemma CreateMetricNameRoundTrip(kind: string, name: string)
    requires |kind| > 0
    ensures KindOfName(CreateMetricName(kind, name)) == Some(kind)
    ensures "name" in CreateMetricName(kind, name).safeTags
    ensures CreateMetricName(kind, name).safeTags["name"] == name
  {
    assert (Prefix + kind)[..|Prefix|] == Prefix;
  }

  /**
    The eight metrics of one executor have eight different names, and two
    executors of different names share none.
   */
  lemma {:induction false} MetricNamesDistinct(name: string, other: string, i: nat, j: nat)
    requires i < |MetricKinds| && j < |MetricKinds|
    ensures i != j ==> CreateMetricName(MetricKinds[i], name) != CreateMetricName(MetricKinds[j], name)
    ensures name != other ==> CreateMetricName(MetricKinds[i], name) != CreateMetricName(MetricKinds[j], other)
  {
    CreateMetricNameRoundTrip(MetricKinds[i], name);
    CreateMetricNameRoundTrip(MetricKinds[j], name);
    CreateMetricNameRoundTrip(MetricKinds[j], other);
  }

  // ---------------------------------------------------------------------
  // Construction
  // ---------------------------------------------------------------------

  /** A constructed executor: its delegate, its name, and the names of the metrics it registered. */
  datatype Executor = Executor(delegate: Ref, name: string, metricNames: seq<MetricName>)

  /** The private constructor: registers the eight metrics under the executor's name. */
  function NewExecutor(delegate: Ref, name: string): (r: Executor)
    ensures r.delegate == delegate && r.name == name
    ensures |r.metricNames| == |MetricKinds|
    ensures forall i | 0 <= i < |MetricKinds| :: KindOfName(r.metricNames[i]) == Some(MetricKinds[i])
    ensures forall i | 0 <= i < |MetricKinds| :: r.metricNames[i].safeTags == map["name" := name]
    ensures forall i, j | 0 <= i < j < |MetricKinds| :: r.metricNames[i] != r.metricNames[j]
  {
    var names := seq(|MetricKinds|, i requires 0 <= i < |MetricKinds| => CreateMetricName(MetricKinds[i], name));
    assert forall i | 0 <= i < |MetricKinds| :: KindOfName(names[i]) == Some(MetricKinds[i]) by {
      forall i | 0 <= i < |MetricKinds| ensures KindOfName(names[i]) == Some(MetricKinds[i]) {
        CreateMetricNameRoundTrip(MetricKinds[i], name);
      }
    }
    Executor(delegate, name, names)
  }

  /**
    `create` as written: the first check tests the registry under the message
    "delegate", so a null registry is reported as a null delegate and a null
    delegate is accepted.
   */
  function CreateAsWritten(delegate: Ref, registry: Ref, name: Option<string>): (r: Result<Executor, NullPointer>)
    ensures r.Success? <==> registry.Obj? && name.Some?
    ensures registry.Null? ==> r.error == NullPointer("delegate")
    ensures registry.Obj? && name.None? ==> r.error == NullPointer("name")
    ensures r.Success? ==> r.value == NewExecutor(delegate, name.value)
  {
    if registry.Null? then Failure(NullPointer("delegate"))
    else if name.None? then Failure(NullPointer("name"))
    else Success(NewExecutor(delegate, name.value))
  }

  /** The discrepancy: a null delegate is accepted, and a null registry is blamed on the delegate. */
  lemma CreateAsWrittenAcceptsNullDelegate()
    ensures CreateAsWritten(Null, Obj(1), Some("pool")).Success?
    ensures CreateAsWritten(Null, Obj(1), Some("pool")).value.delegate == Null
    ensures CreateAsWritten(Obj(1), Null, Some("pool")) == Failure(NullPointer("delegate"))
  {
  }

  /**
    `create` as evidently intended: each argument is checked under its own
    name, in parameter order, and only non-null arguments build an executor.
   */
  function Create(delegate: Ref, registry: Ref, name: Option<string>): (r: Result<Executor, NullPointer>)
    ensures r.Success? <==> delegate.Obj? && registry.Obj? && name.Some?
    ensures delegate.Null? ==> r.error == NullPointer("delegate")
    ensures delegate.Obj? && registry.Null? ==> r.error == NullPointer("registry")
    ensures delegate.Obj? && registry.Obj? && name.None? ==> r.error == NullPointer("name")
    ensures r.Success? ==> r.value == NewExecutor(delegate, name.value) && r.value.delegate.Obj?
  {
    if delegate.Null? then Failure(NullPointer("delegate"))
    else if registry.Null? then Failure(NullPointer("registry"))
    else if name.None? then Failure(NullPointer("name"))
    else Success(NewExecutor(delegate, name.value))
  }

  /** Where both accept, the corrected `create` builds the same executor as the original. */
  lemma CreateAgreesOnValidArguments(delegate: Ref, registry: Ref, name: Option<string>)
    ensures Create(delegate, registry, name).Success? ==> CreateAsWritten(delegate, registry, name) == Create(delegate, registry, name)
    ensures CreateAsWritten(delegate, registry, name).Success? && delegate.Obj? ==> Create(delegate, registry, name).Success?
  {
  }

  // ---------------------------------------------------------------------
  // Submission
  // ---------------------------------------------------------------------

  /** A task handed in by a caller; `id` stands for its identity. */
  datatype Task = Task(id: nat)

  /** The wrappers: `TaggedMetricsRunnable`, `TaggedMetricsCallable`, `TaggedMetricsScheduledRunnable`. */
  datatype Wrapped =
    | Tracked(task: Task)
    | TrackedCallable(task: Task)
    | TrackedPeriodic(task: Task, periodInNanos: Long)

  datatype Timeout = Timeout(amount: Long, unit: TimeUnit)

  datatype Lifecycle = Shutdown | ShutdownNow | IsShutdown | IsTerminated | AwaitTermination(timeout: Timeout)

  /** A call on the executor's public interface. */
  datatype Request =
    | Schedule(task: Task, delay: Long, unit: TimeUnit)
    | ScheduleCallable(task: Task, delay: Long, unit: TimeUnit)
    | ScheduleAtFixedRate(task: Task, initialDelay: Long, period: Long, unit: TimeUnit)
    | ScheduleWithFixedDelay(task: Task, initialDelay: Long, delay: Long, unit: TimeUnit)
    | Execute(task: Task)
    | SubmitCallable(task: Task)
    | SubmitWithResult(task: Task, result: Ref)
    | Submit(task: Task)
    | InvokeAll(tasks: seq<Task>, limit: Option<Timeout>)
    | InvokeAny(tasks: seq<Task>, limit: Option<Timeout>)
    | Control(call: Lifecycle)

  /** The call the executor makes on its delegate in response. */
  datatype Forwarded =
    | ForwardSchedule(wrapped: Wrapped, delay: Long, unit: TimeUnit)
    | ForwardAtFixedRate(wrapped: Wrapped, initialDelay: Long, period: Long, unit: TimeUnit)
    | ForwardWithFixedDelay(wrapped: Wrapped, initialDelay: Long, delay: Long, unit: TimeUnit)
    | ForwardExecute(wrapped: Wrapped)
    | ForwardSubmit(wrapped: Wrapped)
    | ForwardSubmitWithResult(wrapped: Wrapped, result: Ref)
    | ForwardInvokeAll(batch: seq<Wrapped>, limit: Option<Timeout>)
    | ForwardInvokeAny(batch: seq<Wrapped>, limit: Option<Timeout>)
    | ForwardControl(call: Lifecycle)

  datatype Accepted = Accepted(counters: Counters, forwarded: Forwarded)

  /** The tasks a request hands in. */
  function TasksOf(req: Request): seq<Task> {
    match req
    case InvokeAll(tasks, _) => tasks
    case InvokeAny(tasks, _) => tasks
    case Control(_) => []
    case _ => [req.task]
  }

  /** Requests that mark `submitted` (with their task count); scheduling marks its own meters instead. */
  predicate IsSubmission(req: Request) {
    req.Execute? || req.SubmitCallable? || req.SubmitWithResult? || req.Submit? || req.InvokeAll? || req.InvokeAny?
  }

  predicate IsOneShot(req: Request) {
    req.Schedule? || req.ScheduleCallable?
  }

  predicate IsRepeating(req: Request) {
    req.ScheduleAtFixedRate? || req.ScheduleWithFixedDelay?
  }

  /** The tasks inside a batch of wrappers. */
  function Unwrap(batch: seq<Wrapped>): (r: seq<Task>)
    ensures |r| == |batch|
    ensures forall i | 0 <= i < |batch| :: r[i] == batch[i].task
  {
    if |batch| == 0 then [] else [batch[0].task] + Unwrap(batch[1..])
  }

  /** `instrument`: each callable of a batch wrapped once, in order. */
  function Instrument(tasks: seq<Task>): (r: seq<Wrapped>)
    ensures |r| == |tasks|
    ensures forall i | 0 <= i < |tasks| :: r[i] == TrackedCallable(tasks[i])
  {
    if |tasks| == 0 then [] else [TrackedCallable(tasks[0])] + Instrument(tasks[1..])
  }

  /**
    The request a delegate call answers: the delegate call with its wrappers
    taken off. Used to state that nothing but the wrapping is added.
   */
  function Strip(f: Forwarded): Request {
    match f
    case ForwardSchedule(w, delay, unit) =>
      if w.TrackedCallable? then ScheduleCallable(w.task, delay, unit) else Schedule(w.task, delay, unit)
    case ForwardAtFixedRate(w, initialDelay, period, unit) => ScheduleAtFixedRate(w.task, initialDelay, period, unit)
    case ForwardWithFixedDelay(w, initialDelay, delay, unit) => ScheduleWithFixedDelay(w.task, initialDelay, delay, unit)
    case ForwardExecute(w) => Execute(w.task)
    case ForwardSubmit(w) => if w.TrackedCallable? then SubmitCallable(w.task) else Submit(w.task)
    case ForwardSubmitWithResult(w, result) => SubmitWithResult(w.task, result)
    case ForwardInvokeAll(batch, limit) => InvokeAll(Unwrap(batch), limit)
    case ForwardInvokeAny(batch, limit) => InvokeAny(Unwrap(batch), limit)
    case ForwardControl(call) => Control(call)
  }

  /** Every wrapper a delegate call carries. */
  function WrappersOf(f: Forwarded): seq<Wrapped> {
    match f
    case ForwardInvokeAll(batch, _) => batch
    case ForwardInvokeAny(batch, _) => batch
    case ForwardControl(_) => []
    case _ => [f.wrapped]
  }

  /** Callables are wrapped as callables, runnables as runnables. */
  predicate IsCallable(req: Request) {
    req.ScheduleCallable? || req.SubmitCallable? || req.InvokeAll? || req.InvokeAny?
  }

  /**
    One call on the executor: marks the meter of its kind (before the delegate
    is asked, so it counts even when the delegate rejects), and hands the
    delegate the same call with each task wrapped. The delegate's answer is
    returned to the caller unchanged, so it is not modelled here.
   */
  function Accept(c: Counters, req: Request): (r: Accepted)
    ensures r.counters.submitted == c.submitted + (if IsSubmission(req) then |TasksOf(req)| else 0)
    ensures r.counters.scheduledOnce == c.scheduledOnce + (if IsOneShot(req) then 1 else 0)
    ensures r.counters.scheduledRepetitively == c.scheduledRepetitively + (if IsRepeating(req) then 1 else 0)
    ensures r.counters.(submitted := c.submitted, scheduledOnce := c.scheduledOnce,
                        scheduledRepetitively := c.scheduledRepetitively) == c
    ensures Strip(r.forwarded) == req
  {
    match req
    case Schedule(task, delay, unit) =>
      Accepted(c.(scheduledOnce := c.scheduledOnce + 1), ForwardSchedule(Tracked(task), delay, unit))
    case ScheduleCallable(task, delay, unit) =>
      Accepted(c.(scheduledOnce := c.scheduledOnce + 1), ForwardSchedule(TrackedCallable(task), delay, unit))
    case ScheduleAtFixedRate(task, initialDelay, period, unit) =>
      Accepted(c.(scheduledRepetitively := c.scheduledRepetitively + 1),
               ForwardAtFixedRate(TrackedPeriodic(task, ToNanos(period, unit)), initialDelay, period, unit))
    case ScheduleWithFixedDelay(task, initialDelay, delay, unit) =>
      Accepted(c.(scheduledRepetitively := c.scheduledRepetitively + 1),
               ForwardWithFixedDelay(Tracked(task), initialDelay, delay, unit))
    case Execute(task) =>
      Accepted(c.(submitted := c.submitted + 1), ForwardExecute(Tracked(task)))
    case SubmitCallable(task) =>
      Accepted(c.(submitted := c.submitted + 1), ForwardSubmit(TrackedCallable(task)))
    case SubmitWithResult(task, result) =>
      Accepted(c.(submitted := c.submitted + 1), ForwardSubmitWithResult(Tracked(task), result))
    case Submit(task) =>
      Accepted(c.(submitted := c.submitted + 1), ForwardSubmit(Tracked(task)))
    case InvokeAll(tasks, limit) =>
      assert Unwrap(Instrument(tasks)) == tasks;
      Accepted(c.(submitted := c.submitted + |tasks|), ForwardInvokeAll(Instrument(tasks), limit))
    case InvokeAny(tasks, limit) =>
      assert Unwrap(Instrument(tasks)) == tasks;
      Accepted(c.(submitted := c.submitted + |tasks|), ForwardInvokeAny(Instrument(tasks), limit))
    case Control(call) =>
      Accepted(c, ForwardControl(call))
  }

  /**
    The delegate receives each task of a call exactly once, in order, in the
    wrapper of its kind; a fixed-rate task's wrapper holds the period in
    nanoseconds.
   */
  lemma AcceptWrapsEachTaskOnce(c: Counters, req: Request)
    ensures |WrappersOf(Accept(c, req).forwarded)| == |TasksOf(req)|
    ensures forall i | 0 <= i < |TasksOf(req)| ::
      var w := WrappersOf(Accept(c, req).forwarded)[i];
      && w.task == TasksOf(req)[i]
      && (w.TrackedCallable? <==> IsCallable(req))
      && (w.TrackedPeriodic? <==> req.ScheduleAtFixedRate?)
      && (w.TrackedPeriodic? ==> w.periodInNanos == ToNanos(req.period, req.unit))
  {
  }

  /** A series of calls, each starting from the metrics the previous one left. */
  function AcceptAll(c: Counters, reqs: seq<Request>): Counters
    decreases |reqs|
  {
    if |reqs| == 0 then c else AcceptAll(Accept(c, reqs[0]).counters, reqs[1..])
  }

  function SubmittedTasks(reqs: seq<Request>): nat
    decreases |reqs|
  {
    if |reqs| == 0 then 0
    else (if IsSubmission(reqs[0]) then |TasksOf(reqs[0])| else 0) + SubmittedTasks(reqs[1..])
  }

  function Scheduled(reqs: seq<Request>, oneShot: bool): nat
    decreases |reqs|
  {
    if |reqs| == 0 then 0
    else (if (if oneShot then IsOneShot(reqs[0]) else IsRepeating(reqs[0])) then 1 else 0)
         + Scheduled(reqs[1..], oneShot)
  }

  /**
    Over any series of calls, `submitted` grows by exactly the number of tasks
    submitted or invoked, the scheduling meters by the number of schedule
    calls, and no run-time metric moves before a task runs.
   */
  lemma {:induction false} AcceptAllCounts(c: Counters, reqs: seq<Request>)
    ensures AcceptAll(c, reqs).submitted == c.submitted + SubmittedTasks(reqs)
    ensures AcceptAll(c, reqs).scheduledOnce == c.scheduledOnce + Scheduled(reqs, true)
    ensures AcceptAll(c, reqs).scheduledRepetitively == c.scheduledRepetitively + Scheduled(reqs, false)
    ensures AcceptAll(c, reqs).running == c.running
    ensures AcceptAll(c, reqs).completed == c.completed
    ensures AcceptAll(c, reqs).durations == c.durations
    ensures AcceptAll(c, reqs).scheduledOverrun == c.scheduledOverrun
    ensures AcceptAll(c, reqs).percentOfPeriod == c.percentOfPeriod
    decreases |reqs|
  {
    if |reqs| > 0 {
      AcceptAllCounts(Accept(c, reqs[0]).counters, reqs[1..]);
    }
  }

  // ---------------------------------------------------------------------
  // Running a wrapped task
  // ---------------------------------------------------------------------

  /** What `run`/`call` shows its caller, with the metrics after it. */
  datatype Finished = Finished(counters: Counters, outcome: Outcome)

  /** The `ArithmeticException` of a `long` division by zero. */
  const DivisionByZero: Throwable := Runtime("java.lang.ArithmeticException: / by zero")

  /** The percent-of-period sample: `(100L * elapsed) / periodInNanos` in `long` arithmetic. */
  function PercentOfPeriod(elapsed: Long, periodInNanos: Long): (r: Long)
    requires periodInNanos != 0
    ensures 0 <= elapsed <= LongMax / 100 && periodInNanos > 0 ==> r == (100 * elapsed) / periodInNanos
  {
    JavaDiv(Wrap64(100 * elapsed), periodInNanos)
  }

  /** Entering a wrapper's `run`/`call`: one more task running. */
  function Enter(c: Counters): (r: Counters)
    ensures r.running == c.running + 1
    ensures r.(running := c.running) == c
  {
    c.(running := c.running + 1)
  }

  /**
    Leaving a wrapper's `run`/`call`, after the task's body gave `body` and
    took `elapsed` nanoseconds: the duration is recorded, one task fewer is
    running and one more completed, whatever the body did. A periodic wrapper
    then counts an overrun when the occurrence took longer than the period,
    and records the percent-of-period sample; a period of zero makes that
    division throw, and the throw replaces the body's outcome.
   */
  function Leave(c: Counters, w: Wrapped, body: Outcome, elapsed: nat): (r: Finished)
    requires elapsed <= LongMax
    ensures r.counters.running == c.running - 1
    ensures r.counters.completed == c.completed + 1
    ensures r.counters.durations == c.durations + [elapsed]
    ensures r.counters.submitted == c.submitted
    ensures r.counters.scheduledOnce == c.scheduledOnce
    ensures r.counters.scheduledRepetitively == c.scheduledRepetitively
    ensures !w.TrackedPeriodic? ==>
      && r.outcome == body
      && r.counters.scheduledOverrun == c.scheduledOverrun
      && r.counters.percentOfPeriod == c.percentOfPeriod
    ensures w.TrackedPeriodic? ==>
      r.counters.scheduledOverrun == c.scheduledOverrun + (if elapsed > w.periodInNanos then 1 else 0)
    ensures w.TrackedPeriodic? && w.periodInNanos != 0 ==>
      && r.outcome == body
      && r.counters.percentOfPeriod == c.percentOfPeriod + [PercentOfPeriod(elapsed, w.periodInNanos)]
    ensures w.TrackedPeriodic? && w.periodInNanos == 0 ==>
      && r.outcome == Threw(DivisionByZero)
      && r.counters.percentOfPeriod == c.percentOfPeriod
  {
    var done := c.(running := c.running - 1, completed := c.completed + 1, durations := c.durations + [elapsed]);
    match w
    case TrackedPeriodic(_, period) =>
      var checked := if elapsed > period then done.(scheduledOverrun := done.scheduledOverrun + 1) else done;
      if period == 0 then Finished(checked, Threw(DivisionByZero))
      else
        Finished(checked.(percentOfPeriod := checked.percentOfPeriod + [PercentOfPeriod(elapsed, period)]), body)
    case _ => Finished(done, body)
  }

  /** A whole `run`/`call` of a wrapper: enter, run the body, leave. */
  function Run(c: Counters, w: Wrapped, body: Outcome, elapsed: nat): (r: Finished)
    requires elapsed <= LongMax
    ensures r.counters.running == c.running
    ensures r.counters.completed == c.completed + 1
    ensures |r.counters.durations| == |c.durations| + 1
    ensures r.outcome == if w.TrackedPeriodic? && w.periodInNanos == 0 then Threw(DivisionByZero) else body
  {
    Leave(Enter(c), w, body, elapsed)
  }

  /** A step of the executor's threads: a wrapper is entered, or one is left. */
  datatype Step = Enters | Leaves(w: Wrapped, body: Outcome, elapsed: nat)

  function Apply(c: Counters, steps: seq<Step>): Counters
    requires forall i | 0 <= i < |steps| :: steps[i].Leaves? ==> steps[i].elapsed <= LongMax
    decreases |steps|
  {
    if |steps| == 0 then c
    else
      var next := match steps[0]
        case Enters => Enter(c)
        case Leaves(w, body, elapsed) => Leave(c, w, body, elapsed).counters;
      Apply(next, steps[1..])
  }

  function Entered(steps: seq<Step>): nat
    decreases |steps|
  {
    if |steps| == 0 then 0 else (if steps[0].Enters? then 1 else 0) + Entered(steps[1..])
  }

  function Left(steps: seq<Step>): nat
    decreases |steps|
  {
    if |steps| == 0 then 0 else (if steps[0].Leaves? then 1 else 0) + Left(steps[1..])
  }

  /**
    However the runs of many tasks interleave, `running` is the number of
    runs entered and not yet left, `completed` counts the runs left, and one
    duration is recorded per run left. When every run entered has left,
    `running` is back where it started.
   */
  lemma {:induction false} RunningCountsRunsInFlight(c: Counters, steps: seq<Step>)
    requires forall i | 0 <= i < |steps| :: steps[i].Leaves? ==> steps[i].elapsed <= LongMax
    ensures Apply(c, steps).running == c.running + Entered(steps) - Left(steps)
    ensures Apply(c, steps).completed == c.completed + Left(steps)
    ensures |Apply(c, steps).durations| == |c.durations| + Left(steps)
    ensures Apply(c, steps).submitted == c.submitted
    decreases |steps|
  {
    if |steps| > 0 {
      var next := match steps[0]
        case Enters => Enter(c)
        case Leaves(w, body, elapsed) => Leave(c, w, body, elapsed).counters;
      RunningCountsRunsInFlight(next, steps[1..]);
    }
  }

  // ---------------------------------------------------------------------
  // Overrun and the percent-of-period sample
  // ---------------------------------------------------------------------

  /**
    An occurrence that overran its period records a sample of at least 100
    (exactly 100 is possible: see `OverrunCanRecordExactlyHundred`), as long
    as `100 * elapsed` fits a `long` (beyond that, see `OverflowedOverrunRecordsZero`).
   */
  lemma OverrunRecordsAtLeastHundred(elapsed: nat, periodInNanos: Long)
    requires 0 < periodInNanos && elapsed <= LongMax / 100
    requires elapsed > periodInNanos
    ensures PercentOfPeriod(elapsed, periodInNanos) >= 100
  {
    var p := periodInNanos;
    var a := 100 * elapsed;
    var q := a / p;
    assert a == p * q + a % p;
    if q < 100 {
      MulMonotone(q, 99, p);
      assert false;
    }
  }

  /** An occurrence within its period records a sample of at most 100, as long as `100 * elapsed` fits a `long`. */
  lemma WithinPeriodRecordsAtMostHundred(elapsed: nat, periodInNanos: Long)
    requires 0 < periodInNanos && elapsed <= LongMax / 100
    requires elapsed <= periodInNanos
    ensures PercentOfPeriod(elapsed, periodInNanos) <= 100
  {
    var p := periodInNanos;
    var a := 100 * elapsed;
    var q := a / p;
    assert a == p * q + a % p;
    if q > 100 {
      MulMonotone(101, q, p);
      assert false;
    }
  }

  /** Overrun is strict and the sample truncates: a run one nanosecond over a 200 ns period records 100. */
  lemma OverrunCanRecordExactlyHundred()
    ensures Leave(NoActivity, TrackedPeriodic(Task(0), 200), Returned(Null), 201).counters.scheduledOverrun == 1
    ensures Leave(NoActivity, TrackedPeriodic(Task(0), 200), Returned(Null), 201).counters.percentOfPeriod == [100]
  {
    assert PercentOfPeriod(201, 200) == 100;
  }

  /**
    Past the `long` range the product `100 * elapsed` wraps: an occurrence of
    2^62 ns over a 1 ns period counts an overrun and records a sample of 0.
   */
  lemma OverflowedOverrunRecordsZero()
    ensures Leave(NoActivity, TrackedPeriodic(Task(0), 1), Returned(Null), 0x4000_0000_0000_0000).counters.scheduledOverrun == 1
    ensures Leave(NoActivity, TrackedPeriodic(Task(0), 1), Returned(Null), 0x4000_0000_0000_0000).counters.percentOfPeriod == [0]
  {
    assert PercentOfPeriod(0x4000_0000_0000_0000, 1) == 0;
  }
}

=== FILE: java_strings.dfy ===
/**
  The three `java.lang.String` operations the registry code relies on:
  the natural order (`compareTo`), `startsWith`, and `trim`.
  Characters are compared by code, as Java compares UTF-16 code units.
 */
module JavaStrings {

  /**
    The UTF-16 code units of one character: itself below U+10000, otherwise
    a high surrogate followed by a low surrogate.
   */
  function Units(c: char): (r: seq<int>)
    ensures 1 <= |r| <= 2
    ensures |r| == 1 <==> (c as int) < 0x1_0000
    ensures |r| == 1 ==> r[0] == c as int && !(0xD800 <= r[0] < 0xDC00)
    ensures |r| == 2 ==> 0xD800 <= r[0] < 0xDC00 && 0xDC00 <= r[1] < 0xE000
  {
    if (c as int) < 0x1_0000 then [c as int]
    else
      var v := c as int - 0x1_0000;
      [0xD800 + v / 0x400, 0xDC00 + v % 0x400]
  }

  /** A string as Java stores it: the concatenation of its characters' UTF-16 code units. */
  function Utf16(s: string): (r: seq<int>)
    ensures |s| == 0 <==> |r| == 0
    decreases |s|
  {
    if |s| == 0 then [] else Units(s[0]) + Utf16(s[1..])
  }

  /** Two characters with the same code units are the same character. */
  lemma UnitsInjective(a: char, b: char)
    requires Units(a) == Units(b)
    ensures a == b
  {
  }

  /** Different strings have different UTF-16 encodings. */
  lemma {:induction false} Utf16Injective(a: string, b: string)
    requires Utf16(a) == Utf16(b)
    ensures a == b
    decreases |a|
  {
    if |a| > 0 {
      var ua, ub := Units(a[0]), Units(b[0]);
      assert Utf16(a) == ua + Utf16(a[1..]) && Utf16(b) == ub + Utf16(b[1..]);
      assert Utf16(a)[0] == ua[0] && Utf16(b)[0] == ub[0];
      assert |ua| == |ub|;
      assert ua == Utf16(a)[..|ua|] && ub == Utf16(b)[..|ub|];
      UnitsInjective(a[0], b[0]);
      assert Utf16(a[1..]) == Utf16(a)[|ua|..] && Utf16(b[1..]) == Utf16(b)[|ub|..];
      Utf16Injective(a[1..], b[1..]);
      assert a == [a[0]] + a[1..] && b == [b[0]] + b[1..];
    }
  }

  /**
    Lexicographic order of code-unit sequences: at the first position where
    the two differ, `x` has the smaller unit; or `x` is a proper prefix of `y`.
   */
  predicate UnitsLess(x: seq<int>, y: seq<int>) {
    if |x| == 0 then |y| > 0
    else if |y| == 0 then false
    else if x[0] != y[0] then x[0] < y[0]
    else UnitsLess(x[1..], y[1..])
  }

  /**
    `a.compareTo(b) < 0`: Java compares strings by their UTF-16 code units,
    so a supplementary character (high surrogate first) sorts before
    U+E000..U+FFFF.
   */
  predicate Less(a: string, b: string) {
    UnitsLess(Utf16(a), Utf16(b))
  }

  lemma {:induction false} UnitsLessIrreflexive(x: seq<int>)
    ensures !UnitsLess(x, x)
  {
    if |x| > 0 {
      UnitsLessIrreflexive(x[1..]);
    }
  }

  lemma {:induction false} UnitsLessTransitive(x: seq<int>, y: seq<int>, z: seq<int>)
    requires UnitsLess(x, y) && UnitsLess(y, z)
    ensures UnitsLess(x, z)
  {
    if |x| > 0 && x[0] == y[0] && y[0] == z[0] {
      UnitsLessTransitive(x[1..], y[1..], z[1..]);
    }
  }

  lemma {:induction false} UnitsLessTotal(x: seq<int>, y: seq<int>)
    requires x != y
    ensures UnitsLess(x, y) || UnitsLess(y, x)
  {
    if |x| > 0 && |y| > 0 && x[0] == y[0] {
      assert x == [x[0]] + x[1..] && y == [y[0]] + y[1..];
      UnitsLessTotal(x[1..], y[1..]);
    }
  }

  lemma LessIrreflexive(a: string)
    ensures !Less(a, a)
  {
    UnitsLessIrreflexive(Utf16(a));
  }

  lemma LessAsymmetric(a: string, b: string)
    requires Less(a, b)
    ensures !Less(b, a)
  {
    if Less(b, a) {
      UnitsLessTransitive(Utf16(a), Utf16(b), Utf16(a));
      UnitsLessIrreflexive(Utf16(a));
    }
  }

  lemma LessTransitive(a: string, b: string, c: string)
    requires Less(a, b) && Less(b, c)
    ensures Less(a, c)
  {
    UnitsLessTransitive(Utf16(a), Utf16(b), Utf16(c));
  }

  /** Any two different strings are ordered one way or the other. */
  lemma LessTotal(a: string, b: string)
    requires a != b
    ensures Less(a, b) || Less(b, a)
  {
    if Utf16(a) == Utf16(b) {
      Utf16Injective(a, b);
    }
    UnitsLessTotal(Utf16(a), Utf16(b));
  }

  /** The ordering `compareTo` gives is not code-point order: U+10000 sorts before U+FFFF. */
  lemma SupplementarySortsBeforeHighBmp()
    ensures Less("\U{10000}", "\U{FFFF}")
    ensures !Less("\U{FFFF}", "\U{10000}")
  {
  }

  /** `name.startsWith(prefix)`: the prefix fits and agrees position by position. */
  predicate StartsWith(name: string, prefix: string) {
    |prefix| <= |name| && forall i | 0 <= i < |prefix| :: name[i] == prefix[i]
  }

  /** Characters `trim` removes: every code up to and including the space. */
  predicate IsTrimmed(c: char) {
    c <= ' '
  }

  /** Drops the leading characters `trim` removes. */
  function TrimLeading(s: string): (r: string)
    ensures |r| <= |s| && r == s[|s| - |r|..]
    ensures forall i | 0 <= i < |s| - |r| :: IsTrimmed(s[i])
    ensures |r| > 0 ==> !IsTrimmed(r[0])
  {
    if |s| > 0 && IsTrimmed(s[0]) then TrimLeading(s[1..]) else s
  }

  /** Drops the trailing characters `trim` removes. */
  function TrimTrailing(s: string): (r: string)
    ensures |r| <= |s| && r == s[..|r|]
    ensures forall i | |r| <= i < |s| :: IsTrimmed(s[i])
    ensures |r| > 0 ==> !IsTrimmed(r[|r| - 1])
  {
    if |s| > 0 && IsTrimmed(s[|s| - 1]) then TrimTrailing(s[..|s| - 1]) else s
  }

  /**
    `trim()`: leading, then trailing, characters up to the space removed. The
    result is the slice of `s` between a trimmed prefix and a trimmed suffix.
   */
  function Trim(s: string): (r: string)
    ensures |r| > 0 ==> !IsTrimmed(r[0]) && !IsTrimmed(r[|r| - 1])
    ensures |r| == 0 <==> forall i | 0 <= i < |s| :: IsTrimmed(s[i])
    ensures exists i, j | 0 <= i <= j <= |s| :: r == s[i..j] && TrimmedOutside(s, i, j)
  {
    var m := TrimLeading(s);
    var r := TrimTrailing(m);
    var i := |s| - |m|;
    assert r == s[i..i + |r|] && TrimmedOutside(s, i, i + |r|);
    r
  }

  /** Every character of `s` before `i` and from `j` on is one `trim` removes. */
  predicate TrimmedOutside(s: string, i: nat, j: nat)
    requires i <= j <= |s|
  {
    (forall k | 0 <= k < i :: IsTrimmed(s[k])) && (forall k | j <= k < |s| :: IsTrimmed(s[k]))
  }
}

=== FILE: java_values.dfy ===
/**
  Java-level values shared by the instrumentation layer: nullable references,
  the throwable classes the call protocol tells apart, call outcomes, and the
  64-bit `long` arithmetic the executor bookkeeping performs.
 */
module JavaValues {

  datatype Option<+T> = None | Some(value: T)

  datatype Result<+R, +E> = Success(value: R) | Failure(error: E)

  /** A nullable object reference; `Obj(id)` is one object identity. */
  datatype Ref = Null | Obj(id: nat)

  /**
    The throwable classes that the interception protocol distinguishes.
    The name stands for the throwable's identity (class and message).
    `InvocationTarget` is reflection's wrapper; it is a checked exception,
    not a `RuntimeException`.
   */
  datatype Throwable =
    | Runtime(name: string)
    | Error(name: string)
    | Checked(name: string)
    | InvocationTarget(cause: Throwable)

  /** True for the throwables a `catch (RuntimeException e)` clause catches. */
  predicate IsRuntime(t: Throwable) {
    t.Runtime?
  }

  /** The `NullPointerException` `checkNotNull` throws, with the message it was given. */
  datatype NullPointer = NullPointer(message: string)

  /** What a call shows its caller: a returned value or a thrown throwable. */
  datatype Outcome = Returned(value: Ref) | Threw(thrown: Throwable)

  /** Bounds of Java's `long`. */
  const LongMin: int := -0x8000_0000_0000_0000
  const LongMax: int := 0x7FFF_FFFF_FFFF_FFFF

  type Long = x: int | LongMin <= x <= LongMax

  /** Two's-complement wrap-around of a mathematical integer into a `long`. */
  function Wrap64(x: int): (r: Long)
    ensures LongMin <= x <= LongMax ==> r == x
    ensures (r - x) % 0x1_0000_0000_0000_0000 == 0
  {
    (x - LongMin) % 0x1_0000_0000_0000_0000 + LongMin
  }

  /** Java's `long` division: truncates toward zero, wraps on `MIN / -1`. */
  function JavaDiv(a: Long, b: Long): (r: Long)
    requires b != 0
    ensures a >= 0 && b > 0 ==> r == a / b
    ensures a <= 0 && b > 0 ==> r == -((-(a as int)) / b)
  {
    var magnitude := Abs(a) / Abs(b);
    QuotientBound(Abs(a), Abs(b));
    Wrap64(if (a >= 0) == (b > 0) then magnitude else -magnitude)
  }

  lemma QuotientBound(x: nat, y: nat)
    requires y > 0
    ensures 0 <= x / y <= x
  {
    var q := x / y;
    assert x == y * q + x % y;
    ProductAtLeastFactor(y, q);
  }

  lemma ProductAtLeastFactor(y: nat, q: nat)
    requires y >= 1
    ensures y * q >= q
  {
  }

  function Abs(x: int): nat {
    if x < 0 then -x else x
  }
}

=== FILE: metric_registries.dfy ===
/**
  `MetricRegistries`: the registration discipline every instrumentation
  adapter goes through. The registry is a map from metric name to metric;
  registration either inserts, rejects a name already taken by a metric with
  different interfaces, or keeps (or replaces) a compatible one.
 */
module MetricRegistries {
  import opened JavaValues
  import JavaStrings

  /**
    A metric instance: its identity, its class, and the set of interfaces its
    class implements directly (what `getClass().getInterfaces()` lists).
   */
  datatype Metric = Metric(id: nat, className: string, interfaces: set<string>)

  type Registry = map<string, Metric>

  datatype RegistryError =
    | InterfaceConflict(name: string, existing: Metric)  // IllegalArgumentException of registerOrReplace
    | KindMismatch(name: string, found: Option<Metric>, offered: Metric)  // SafeIllegalArgumentException of getOrAdd
    | BlankCacheName  // checkArgument of registerCache

  /** The registry after a registration call, and what the call returned or threw. */
  datatype Registration = Registration(registry: Registry, result: Result<Metric, RegistryError>)

  /** Every entry other than `name` is the same in both registries. */
  predicate SameElsewhere(before: Registry, after: Registry, name: string) {
    before - {name} == after - {name}
  }

  /** The external registry's `remove`: the registry without `name`, and whether it was there. */
  function Remove(reg: Registry, name: string): (Registry, bool) {
    (reg - {name}, name in reg)
  }

  // ---------------------------------------------------------------------
  // registerSafe / registerWithReplacement
  // ---------------------------------------------------------------------

  /**
    `registerOrReplace`. An absent name is registered. A present name whose
    metric implements a different interface set is a conflict and nothing
    changes. Otherwise the existing metric is kept and returned, or, when
    replacing, removed and the new one installed and returned.
   */
  function RegisterOrReplace(reg: Registry, name: string, metric: Metric, replace: bool): (r: Registration)
    ensures r.result.Success? <==> name !in reg || reg[name].interfaces == metric.interfaces
    ensures r.result.Failure? ==> r.registry == reg && r.result.error == InterfaceConflict(name, reg[name])
    ensures r.result.Success? ==> name in r.registry && r.registry[name] == r.result.value
    ensures r.result.Success? ==> r.result.value.interfaces == metric.interfaces
    ensures r.result.Success? ==>
      r.result.value == if replace || name !in reg then metric else reg[name]
    ensures SameElsewhere(reg, r.registry, name)
  {
    if name !in reg then Registration(reg[name := metric], Success(metric))
    else
      var existing := reg[name];
      if existing.interfaces != metric.interfaces then
        Registration(reg, Failure(InterfaceConflict(name, existing)))
      else if !replace then Registration(reg, Success(existing))
      else
        var (withoutName, removed) := Remove(reg, name);
        if removed then Registration(withoutName[name := metric], Success(metric))
        else Registration(reg, Success(existing))
  }

  /** `registerSafe`: a compatible metric already registered wins, and nothing changes. */
  function RegisterSafe(reg: Registry, name: string, metric: Metric): (r: Registration)
    ensures name !in reg ==> r == Registration(reg[name := metric], Success(metric))
    ensures name in reg && reg[name].interfaces == metric.interfaces ==>
      r == Registration(reg, Success(reg[name]))
    ensures name in reg && reg[name].interfaces != metric.interfaces ==>
      r == Registration(reg, Failure(InterfaceConflict(name, reg[name])))
  {
    RegisterOrReplace(reg, name, metric, false)
  }

  /** `registerWithReplacement`: a compatible metric already registered is swapped for the new one. */
  function RegisterWithReplacement(reg: Registry, name: string, metric: Metric): (r: Registration)
    ensures name !in reg || reg[name].interfaces == metric.interfaces ==>
      r == Registration(reg[name := metric], Success(metric))
    ensures name in reg && reg[name].interfaces != metric.interfaces ==>
      r == Registration(reg, Failure(InterfaceConflict(name, reg[name])))
  {
    RegisterOrReplace(reg, name, metric, true)
  }

  /** A second identical `registerSafe` changes nothing and returns what the first returned. */
  lemma RegisterSafeIdempotent(reg: Registry, name: string, metric: Metric)
    ensures RegisterSafe(RegisterSafe(reg, name, metric).registry, name, metric)
         == RegisterSafe(reg, name, metric)
  {
  }

  /** Of two compatible `registerSafe` calls on a fresh name, the first-registered metric wins. */
  lemma FirstRegistrationWins(reg: Registry, name: string, first: Metric, second: Metric)
    requires name !in reg
    requires first.interfaces == second.interfaces
    ensures RegisterSafe(RegisterSafe(reg, name, first).registry, name, second)
         == Registration(reg[name := first], Success(first))
  {
  }

  /** Of two compatible `registerWithReplacement` calls, the last one wins. */
  lemma LastReplacementWins(reg: Registry, name: string, first: Metric, second: Metric)
    requires name !in reg || reg[name].interfaces == first.interfaces
    requires first.interfaces == second.interfaces
    ensures RegisterWithReplacement(RegisterWithReplacement(reg, name, first).registry, name, second)
         == Registration(reg[name := second], Success(second))
  {
  }

  // ---------------------------------------------------------------------
  // getOrAdd
  // ---------------------------------------------------------------------

  /**
    A `MetricBuilder`: the metric `newMetric()` builds and the kind test
    `isInstance`.
   */
  datatype MetricBuilder = MetricBuilder(newMetric: Metric, isInstance: Metric -> bool)

  /** A builder whose own product passes its kind test, as `newMetric()` of type `T` does. */
  predicate WellFormed(b: MetricBuilder) {
    b.isInstance(b.newMetric)
  }

  /**
    What other threads do to `name` while `addMetric` runs: nothing; register
    their own metric just before our `register`; or register it and remove it
    again before our fallback lookup.
   */
  datatype Race = Uncontended | LostTo(winner: Metric) | LostThenRemoved(winner: Metric)

  /** `getAndCheckExistingMetric`: the existing metric, if there is one and it is of the builder's kind. */
  function CheckExisting(name: string, builder: MetricBuilder, existing: Option<Metric>)
    : (r: Result<Metric, RegistryError>)
    ensures r.Success? <==> existing.Some? && builder.isInstance(existing.value)
    ensures r.Success? ==> r.value == existing.value
    ensures r.Failure? ==> r.error == KindMismatch(name, existing, builder.newMetric)
  {
    if existing.Some? && builder.isInstance(existing.value) then Success(existing.value)
    else Failure(KindMismatch(name, existing, builder.newMetric))
  }

  /**
    `addMetric`: register a freshly built metric; when `register` fails
    because the name was taken meanwhile, look the name up again and apply
    the kind check to whatever is there.
   */
  function AddMetric(reg: Registry, name: string, builder: MetricBuilder, race: Race): (r: Registration)
    ensures r.result.Success? ==> name in r.registry && r.registry[name] == r.result.value
    ensures r.result.Failure? ==> r.result.error.KindMismatch?
    ensures race.Uncontended? && name !in reg ==>
      r == Registration(reg[name := builder.newMetric], Success(builder.newMetric))
    ensures race.Uncontended? && name in reg ==>
      r.registry == reg && (r.result.Success? <==> builder.isInstance(reg[name]))
    ensures race.LostTo? ==>
      && r.registry == reg[name := race.winner]
      && (r.result.Success? <==> builder.isInstance(race.winner))
    ensures race.LostThenRemoved? ==>
      && name !in r.registry && SameElsewhere(reg, r.registry, name)
      && r.result == Failure(KindMismatch(name, None, builder.newMetric))
  {
    var atRegister := match race
      case Uncontended => reg
      case LostTo(w) => reg[name := w]
      case LostThenRemoved(w) => reg[name := w];
    if name !in atRegister then
      Registration(atRegister[name := builder.newMetric], Success(builder.newMetric))
    else
      var atLookup := if race.LostThenRemoved? then atRegister - {name} else atRegister;
      var existing := if name in atLookup then Some(atLookup[name]) else None;
      Registration(atLookup, CheckExisting(name, builder, existing))
  }

  /**
    `getOrAdd`: register-or-get with a kind check. A present metric of the
    builder's kind is returned and nothing changes; a present metric of
    another kind is an error; an absent name gets the builder's metric, or,
    when another thread got there first, the winner under the same kind check.
   */
  function GetOrAdd(reg: Registry, name: string, builder: MetricBuilder, race: Race): (r: Registration)
    ensures name in reg ==> r.registry == reg
    ensures name in reg ==> (r.result.Success? <==> builder.isInstance(reg[name]))
    ensures name in reg && r.result.Success? ==> r.result.value == reg[name]
    ensures name !in reg && race.Uncontended? ==>
      r == Registration(reg[name := builder.newMetric], Success(builder.newMetric))
    ensures name !in reg && race.LostTo? ==>
      && r.registry == reg[name := race.winner]
      && (r.result.Success? <==> builder.isInstance(race.winner))
    ensures name !in reg && race.LostThenRemoved? ==>
      r.registry == reg && r.result == Failure(KindMismatch(name, None, builder.newMetric))
    ensures r.result.Success? ==> name in r.registry && r.registry[name] == r.result.value
    ensures WellFormed(builder) && r.result.Success? ==> builder.isInstance(r.result.value)
    ensures r.result.Failure? ==> r.result.error.KindMismatch?
    ensures SameElsewhere(reg, r.registry, name)
  {
    if name in reg then Registration(reg, CheckExisting(name, builder, Some(reg[name])))
    else AddMetric(reg, name, builder, race)
  }

  /**
    Once `getOrAdd` has given a metric for a name, asking again with the same
    builder gives that same metric and changes nothing, whatever other threads do.
   */
  lemma GetOrAddIdempotent(reg: Registry, name: string, builder: MetricBuilder, first: Race, second: Race)
    requires WellFormed(builder)
    requires GetOrAdd(reg, name, builder, first).result.Success?
    ensures GetOrAdd(GetOrAdd(reg, name, builder, first).registry, name, builder, second)
         == GetOrAdd(reg, name, builder, first)
  {
  }

  // ---------------------------------------------------------------------
  // metricsPrefixedBy / metricsMatching
  // ---------------------------------------------------------------------

  /** A `MetricFilter`. */
  type Filter = (string, Metric) -> bool

  /** `metricsPrefixedBy`: matches exactly the names that start with `prefix`. */
  function PrefixedBy(prefix: string): (f: Filter)
    ensures forall name, m :: f(name, m) <==> JavaStrings.StartsWith(name, prefix)
  {
    (name: string, m: Metric) => prefix <= name
  }

  /** Entries ordered strictly by name, as a `TreeMap` iterates them. */
  predicate StrictlySorted(entries: seq<(string, Metric)>) {
    forall i, j | 0 <= i < j < |entries| :: JavaStrings.Less(entries[i].0, entries[j].0)
  }

  function Names(entries: seq<(string, Metric)>): set<string> {
    set i | 0 <= i < |entries| :: entries[i].0
  }

  /** `TreeMap.put`: insert in name order, or overwrite the entry of the same name. */
  function Put(entries: seq<(string, Metric)>, name: string, m: Metric): (r: seq<(string, Metric)>)
    requires StrictlySorted(entries)
    ensures StrictlySorted(r)
    ensures Names(r) == Names(entries) + {name}
    ensures (name, m) in r
    ensures forall e | e in r :: e == (name, m) || (e in entries && e.0 != name)
    ensures forall e | e in entries && e.0 != name :: e in r
    decreases |entries|
  {
    if |entries| == 0 then [(name, m)]
    else if JavaStrings.Less(name, entries[0].0) then
      SortedBelow(name, m, entries);
      NamesOfCons((name, m), entries);
      [(name, m)] + entries
    else if name == entries[0].0 then
      NamesOfTail(entries);
      NamesOfCons((name, m), entries[1..]);
      [(name, m)] + entries[1..]
    else
      var rest := Put(entries[1..], name, m);
      JavaStrings.LessTotal(name, entries[0].0);
      SortedAbove(entries[0], entries, rest);
      NamesOfTail(entries);
      NamesOfCons(entries[0], rest);
      [entries[0]] + rest
  }

  /** Prepending a name below the first of a sorted sequence keeps it sorted. */
  lemma SortedBelow(name: string, m: Metric, entries: seq<(string, Metric)>)
    requires StrictlySorted(entries) && |entries| > 0
    requires JavaStrings.Less(name, entries[0].0)
    ensures StrictlySorted([(name, m)] + entries)
    ensures forall e | e in entries :: e.0 != name
  {
    var r := [(name, m)] + entries;
    forall j | 1 <= j < |r|
      ensures JavaStrings.Less(name, r[j].0)
    {
      if j > 1 {
        JavaStrings.LessTransitive(name, entries[0].0, entries[j - 1].0);
      }
    }
    forall e | e in entries ensures e.0 != name {
      var j :| 0 <= j < |entries| && entries[j] == e;
      assert r[j + 1] == e;
      JavaStrings.LessIrreflexive(name);
    }
  }

  /** Keeping the first entry in front of a sorted rest whose names all exceed it stays sorted. */
  lemma SortedAbove(first: (string, Metric), entries: seq<(string, Metric)>, rest: seq<(string, Metric)>)
    requires StrictlySorted(rest)
    requires StrictlySorted(entries) && |entries| > 0 && entries[0] == first
    requires forall e | e in rest :: e in entries[1..] || JavaStrings.Less(first.0, e.0)
    ensures StrictlySorted([first] + rest)
  {
    var r := [first] + rest;
    forall i, j | 0 <= i < j < |r|
      ensures JavaStrings.Less(r[i].0, r[j].0)
    {
      if i == 0 {
        assert r[j] == rest[j - 1] && r[j] in rest;
        if r[j] in entries[1..] {
          var k :| 0 <= k < |entries[1..]| && entries[1..][k] == r[j];
          assert entries[k + 1] == r[j];
        }
      }
    }
  }

  lemma NamesOfCons(first: (string, Metric), rest: seq<(string, Metric)>)
    ensures Names([first] + rest) == {first.0} + Names(rest)
  {
    NamesOfTail([first] + rest);
    assert ([first] + rest)[1..] == rest;
  }

  lemma NamesOfTail(entries: seq<(string, Metric)>)
    requires |entries| > 0
    ensures Names(entries) == {entries[0].0} + Names(entries[1..])
  {
    forall n | n in Names(entries) ensures n in {entries[0].0} + Names(entries[1..]) {
      var i :| 0 <= i < |entries| && entries[i].0 == n;
      if i > 0 { assert entries[1..][i - 1].0 == n; }
    }
  }

  /**
    `metricsMatching`: visit every entry of the registry and put the ones the
    filter accepts into a sorted map.
   */
  method MetricsMatching(reg: Registry, filter: Filter) returns (sorted: seq<(string, Metric)>)
    ensures StrictlySorted(sorted)
    ensures Names(sorted) == set name | name in reg && filter(name, reg[name])
    ensures forall e | e in sorted :: e.0 in reg && reg[e.0] == e.1
  {
    sorted := [];
    var unvisited := reg.Keys;
    while unvisited != {}
      invariant unvisited <= reg.Keys
      invariant StrictlySorted(sorted)
      invariant Names(sorted) == set name | name in reg.Keys - unvisited && filter(name, reg[name])
      invariant forall e | e in sorted :: e.0 in reg && reg[e.0] == e.1
      decreases unvisited
    {
      var name :| name in unvisited;
      if filter(name, reg[name]) {
        sorted := Put(sorted, name, reg[name]);
      }
      unvisited := unvisited - {name};
    }
  }

  // ---------------------------------------------------------------------
  // registerCache
  // ---------------------------------------------------------------------

  /** The outcome of `registerCache`: the registry, and the error thrown, if any. */
  datatype CacheRegistration = CacheRegistration(registry: Registry, error: Option<RegistryError>)

  /** The entries of a metric set, as a map lists them: no name twice. */
  predicate DistinctNames(entries: seq<(string, Metric)>) {
    forall i, j | 0 <= i < j < |entries| :: entries[i].0 != entries[j].0
  }

  /** No entry's name is taken in `reg` by a metric with other interfaces. */
  predicate Compatible(reg: Registry, entries: seq<(string, Metric)>) {
    forall i | 0 <= i < |entries| ::
      entries[i].0 in reg ==> reg[entries[i].0].interfaces == entries[i].1.interfaces
  }

  /**
    The iteration stopped at entry `k`: the entries before it were compatible
    and are now registered, entry `k` conflicts with the metric registered
    under its name, that conflict is the error, and entry `k` and every later
    entry's name still hold what they held before.
   */
  predicate StoppedAt(reg: Registry, entries: seq<(string, Metric)>, k: int, r: CacheRegistration)
    requires 0 <= k < |entries|
  {
    && Compatible(reg, entries[..k])
    && entries[k].0 in reg && reg[entries[k].0].interfaces != entries[k].1.interfaces
    && r.error == Some(InterfaceConflict(entries[k].0, reg[entries[k].0]))
    && (forall i | 0 <= i < k :: entries[i].0 in r.registry && r.registry[entries[i].0] == entries[i].1)
    && (forall i | k <= i < |entries| ::
          (entries[i].0 in r.registry <==> entries[i].0 in reg)
          && (entries[i].0 in reg ==> r.registry[entries[i].0] == reg[entries[i].0]))
  }

  /**
    `registerWithReplacement` applied to every entry in order; the first
    conflict stops the iteration with the earlier entries already registered.
   */
  function RegisterAllWithReplacement(reg: Registry, entries: seq<(string, Metric)>): (r: CacheRegistration)
    requires DistinctNames(entries)
    ensures r.error.None? <==> Compatible(reg, entries)
    ensures r.error.Some? ==> exists k | 0 <= k < |entries| :: StoppedAt(reg, entries, k, r)
    ensures r.error.None? ==>
      forall i | 0 <= i < |entries| :: entries[i].0 in r.registry && r.registry[entries[i].0] == entries[i].1
    ensures forall k | k !in Names(entries) :: (k in r.registry <==> k in reg) && (k in reg ==> r.registry[k] == reg[k])
    decreases |entries|
  {
    if |entries| == 0 then CacheRegistration(reg, None)
    else
      var step := RegisterWithReplacement(reg, entries[0].0, entries[0].1);
      if step.result.Failure? then
        var r := CacheRegistration(reg, Some(step.result.error));
        assert StoppedAt(reg, entries, 0, r);
        r
      else
        var rest := entries[1..];
        assert DistinctNames(rest) by {
          forall i, j | 0 <= i < j < |rest| ensures rest[i].0 != rest[j].0 {
            assert rest[i] == entries[i + 1] && rest[j] == entries[j + 1];
          }
        }
        assert Compatible(reg, entries) <==> Compatible(step.registry, rest) by {
          forall i | 0 <= i < |rest| ensures rest[i] == entries[i + 1] && rest[i].0 != entries[0].0 {
            assert entries[0].0 != entries[i + 1].0;
          }
        }
        NamesOfTail(entries);
        var r := RegisterAllWithReplacement(step.registry, rest);
        StopLiftsPastFirst(reg, entries, r);
        r
  }

  /**
    When the first entry registers cleanly, a stop at entry `k` of the rest,
    starting from the registry that first registration left, is a stop at
    entry `k + 1` of all the entries, starting from `reg`.
   */
  lemma StopLiftsPastFirst(reg: Registry, entries: seq<(string, Metric)>, r: CacheRegistration)
    requires DistinctNames(entries) && |entries| > 0
    requires RegisterWithReplacement(reg, entries[0].0, entries[0].1).result.Success?
    requires entries[0].0 !in Names(entries[1..])
    requires var step := RegisterWithReplacement(reg, entries[0].0, entries[0].1);
      && (r.error.Some? ==> exists k | 0 <= k < |entries| - 1 :: StoppedAt(step.registry, entries[1..], k, r))
      && (entries[0].0 in r.registry <==> entries[0].0 in step.registry)
      && (entries[0].0 in step.registry ==> r.registry[entries[0].0] == step.registry[entries[0].0])
    ensures r.error.Some? ==> exists k | 0 <= k < |entries| :: StoppedAt(reg, entries, k, r)
  {
    if r.error.Some? {
      var step := RegisterWithReplacement(reg, entries[0].0, entries[0].1);
      var rest := entries[1..];
      var k :| 0 <= k < |rest| && StoppedAt(step.registry, rest, k, r);
      forall i | 0 <= i < |rest| ensures rest[i] == entries[i + 1] && rest[i].0 != entries[0].0 {
        assert entries[0].0 != entries[i + 1].0;
      }
      assert entries[k + 1] == rest[k];
      assert Compatible(reg, entries[..k + 1]) by {
        forall i | 0 <= i < k + 1 && entries[i].0 in reg
          ensures reg[entries[i].0].interfaces == entries[i].1.interfaces
        {
          if i > 0 {
            assert rest[..k][i - 1] == entries[i];
          }
        }
      }
      assert forall i | 0 <= i < k + 1 :: entries[i].0 in r.registry && r.registry[entries[i].0] == entries[i].1 by {
        forall i | 0 <= i < k + 1
          ensures entries[i].0 in r.registry && r.registry[entries[i].0] == entries[i].1
        {
          if i > 0 {
            assert rest[i - 1] == entries[i];
          }
        }
      }
      assert forall i | k + 1 <= i < |entries| ::
          (entries[i].0 in r.registry <==> entries[i].0 in reg)
          && (entries[i].0 in reg ==> r.registry[entries[i].0] == reg[entries[i].0]) by {
        forall i | k + 1 <= i < |entries|
          ensures (entries[i].0 in r.registry <==> entries[i].0 in reg)
          ensures entries[i].0 in reg ==> r.registry[entries[i].0] == reg[entries[i].0]
        {
          assert rest[i - 1] == entries[i];
        }
      }
      assert StoppedAt(reg, entries, k + 1, r);
    }
  }

  /**
    `registerCache`: a name that is blank after trimming is rejected before
    anything is registered; otherwise every metric of the cache's metric set
    is registered with replacement, stopping at the first conflict.
   */
  function RegisterCache(reg: Registry, name: string, cacheMetrics: seq<(string, Metric)>): (r: CacheRegistration)
    requires DistinctNames(cacheMetrics)
    ensures r.error == Some(BlankCacheName) <==> forall i | 0 <= i < |name| :: JavaStrings.IsTrimmed(name[i])
    ensures r.error == Some(BlankCacheName) ==> r.registry == reg
    ensures r.error.None? <==>
      (exists i | 0 <= i < |name| :: !JavaStrings.IsTrimmed(name[i])) && Compatible(reg, cacheMetrics)
    ensures r.error.Some? && r.error != Some(BlankCacheName) ==>
      exists k | 0 <= k < |cacheMetrics| :: StoppedAt(reg, cacheMetrics, k, r)
    ensures r.error.None? ==>
      forall i | 0 <= i < |cacheMetrics| ::
        cacheMetrics[i].0 in r.registry && r.registry[cacheMetrics[i].0] == cacheMetrics[i].1
    ensures forall k | k !in Names(cacheMetrics) ::
      (k in r.registry <==> k in reg) && (k in reg ==> r.registry[k] == reg[k])
  {
    if |JavaStrings.Trim(name)| == 0 then CacheRegistration(reg, Some(BlankCacheName))
    else RegisterAllWithReplacement(reg, cacheMetrics)
  }

  /**
    Registering a cache again under the same name, with a metric set of the
    same names and interfaces, swaps in the new metrics.
   */
  lemma ReRegisteringCacheSwapsMetrics(
    reg: Registry, name: string, first: seq<(string, Metric)>, second: seq<(string, Metric)>)
    requires DistinctNames(first) && DistinctNames(second)
    requires |first| == |second|
    requires forall i | 0 <= i < |first| :: first[i].0 == second[i].0 && first[i].1.interfaces == second[i].1.interfaces
    requires RegisterCache(reg, name, first).error.None?
    ensures RegisterCache(RegisterCache(reg, name, first).registry, name, second).error.None?
    ensures forall i | 0 <= i < |second| ::
      RegisterCache(RegisterCache(reg, name, first).registry, name, second).registry[second[i].0] == second[i].1
  {
  }
}
